=== FILE: README.md ===
# flake8-pytest-mark, modelled in Dafny

flake8-pytest-mark is a flake8 plugin that checks pytest test functions for
configured marks. Up to 49 rules, `pytest_mark1` … `pytest_mark49`, are set
in the flake8 configuration. Each rule names a mark (`name`). It may also
constrain the mark's values, either with a prefix-anchored regular
expression (`value_regex`) or as UUIDs (`value_match = uuid`).

For every `test_…` function and every configured rule the plugin reports
the following:

- **M5xx**: the mark is missing.
- **M6xx**: the mark carries values that fail the configured check.
- **M7xx**: the mark carries non-string values.

When no rule is configured at all, `run` reports a single **M401** at line 0,
column 0, and nothing else (flake8_pytest_mark.py:49-51).

`rules.py` also has **M8xx**, which reports a mark used twice unless
`allow_duplicate` is `true`. The checker class never calls it.

The repository holds the rules twice:

- `flake8_pytest_mark/rules.py` holds standalone rule functions. They have no
  `test_` gate and read `rule_conf['name']` without a guard.
- `flake8_pytest_mark.py` holds the `MarkChecker` class that flake8 runs. It
  has its own inline M5/M6/M7, gated on `FunctionDef` and a `test_` name. It
  also has the option parser and the `run` driver.

The model covers both versions and proves where they agree and where they
differ.

Modules:

- `Wrappers` (`wrappers.dfy`): `Option` and `Result`.
- `Seqs` (`seqs.dfy`): the subsequence relation the filters are stated with.
- `Strings` (`strings.dfy`): the Python string operations the plugin uses.
  These are `isdigit`, `zfill`, `split` and `join`, `strip`, `lower` and `str(n)`.
- `Ast` (`ast.dfy`): decorator expressions and walked nodes. Python's
  attribute lookups are modelled as `Option`-valued accessors, with `None`
  where Python raises AttributeError.
- `Decorators` (`decorators.dfy`): `_reduce_decorators_by_mark` and
  `_get_decorator_args`.
- `Rules` (`rules.dfy`): the rule code and `rule_m5xx` … `rule_m8xx` of
  `rules.py`, with M6's loop as written.
- `Options` (`options.dfy`): `MarkChecker.parse_options`. A missing `=` on
  a whitelisted key raises IndexError in the source; the model returns `Err`.
- `MarkChecker` (`checker.dfy`): the inline rules and `run`. A rule without
  `name` raises KeyError in the source at the first function definition; the
  model returns `Err`.
- `RunOrder` (`walk.dfy`): the whole sequence `run` yields, written out as
  the walk, then the families, then the registry.
- `Scenarios` (`scenarios.dfy`): worked examples.

Regular-expression matching and UUID parsing are foreign to the plugin. They
are the two function-valued fields of `Rules.Validators`, and every property
holds for any choice of them.

`rule_m8xx` says it can be turned off with `allow_duplicate=true`
(flake8_pytest_mark/rules.py:107-108). The option parser's whitelist
(flake8_pytest_mark.py:37) does not accept that key, and the model follows
the code. `Options.ParsedRulesAreStrict` proves that no parsed rule can
allow duplicates. Since `run` never calls M8, this has no visible effect.

## Model

| member | source | states |
|---|---|---|
| Strings.KeepDigits | flake8_pytest_mark/rules.py:23 | the digits kept are all digits; a name of digits is kept whole, and a name without digits gives the empty string |
| Strings.KeepDigitsAppend | flake8_pytest_mark/rules.py:23 | keeping the digits of a concatenation keeps the digits of each part, in order |
| Strings.ZFill | flake8_pytest_mark/rules.py:24 | the padded string has the requested width (or its own length if longer), ends with the input, and is `0` before it |
| Strings.NatToStringRoundTrip | flake8_pytest_mark.py:17 | reading back the decimal rendering of a slot number gives the number |
| Strings.Split | flake8_pytest_mark.py:35 | `split('=')` gives at least one piece, no piece contains `=`, joining the pieces restores the line, and one piece means no `=` |
| Strings.SplitAfterFirst | flake8_pytest_mark.py:35 | a separator-free prefix before a separator is split off as the first piece |
| Strings.SplitJoin | flake8_pytest_mark.py:35 | splitting a join of separator-free pieces gives the pieces back |
| Strings.Strip | flake8_pytest_mark.py:35 | `strip()` gives the slice of the line between its leading and its trailing whitespace: no whitespace is left at either end, the result is empty exactly for all-whitespace input, and trimmed input is unchanged |
| Strings.TrimBothSlice | flake8_pytest_mark.py:35 | trimming both ends leaves a slice of the line with only whitespace before and after it |
| Strings.LowerIsTrue | flake8_pytest_mark/rules.py:124 | `s.lower() == 'true'` holds exactly for the sixteen case spellings of `true` |
| Decorators.MatchesMarkShape | flake8_pytest_mark/rules.py:143-147 | a decorator matches exactly when it is a call whose callee is `<x>.<mark>` with `x.value` the name `pytest`; the middle link is not inspected and a bare `@pytest.mark.x` does not match |
| Decorators.ReduceByMark | flake8_pytest_mark/rules.py:129-148 | the filtered list holds exactly the matching decorators and is no longer than the input |
| Decorators.ReduceByMarkIsFilter | flake8_pytest_mark/rules.py:141-148 | the result is an order-preserving subsequence holding every occurrence of a matching decorator and no other |
| Decorators.ReduceByMarkAppend | flake8_pytest_mark/rules.py:142-147 | decorators are judged one at a time: the filter distributes over concatenation |
| Decorators.ReduceByMarkMoreThanOne | flake8_pytest_mark/rules.py:125 | more than one decorator survives exactly when two distinct positions hold a matching decorator |
| Decorators.StringPrefix | flake8_pytest_mark/rules.py:160-166 | the values read are those of the leading string literals, and reading stops at the first non-string |
| Decorators.GetDecoratorArgs | flake8_pytest_mark/rules.py:151-166 | a non-call gives no values; otherwise the values are the longest all-string prefix, and nothing after the first non-string is returned |
| Decorators.GetDecoratorArgsComplete | flake8_pytest_mark/rules.py:160-166 | every argument is read exactly when every argument is a string literal |
| Rules.RuleCode | flake8_pytest_mark/rules.py:23-24 | the code is all digits, at least two long, ends with the name's digits and is zero-padded before them; names with two or more digits keep them unchanged |
| Rules.RuleCodeIdempotent | flake8_pytest_mark/rules.py:23-24 | deriving a code from a code changes nothing |
| Rules.RuleCodeOfSuffix | flake8_pytest_mark/rules.py:23-24 | a digit-free prefix followed by digits has the padded digits as its code |
| Rules.RuleM5 | flake8_pytest_mark/rules.py:8-27 | at most one violation, present exactly when no decorator is `@pytest.mark.<name>(...)`, at the node's line, column 0, with the rule's code and mark |
| Rules.FailingValues | flake8_pytest_mark/rules.py:58-73 | the reported values of one decorator are exactly its failing values, in argument order |
| Rules.FailingValuesAppend | flake8_pytest_mark/rules.py:58-73 | the values are checked one at a time, so the failures of a concatenation are the failures of each part |
| Rules.FailingAll | flake8_pytest_mark/rules.py:49-73 | every reported value fails the configured check |
| Rules.FailingAllMembers | flake8_pytest_mark/rules.py:49-73 | a value is reported exactly when it occurs in some decorator's list and fails |
| Rules.FailingAllAppend | flake8_pytest_mark/rules.py:49-73 | decorators are scanned in order: the failures of a concatenation are the failures of each part |
| Rules.FailingAllStep | flake8_pytest_mark/rules.py:49-73 | scanning one more decorator appends its failing values |
| Rules.RuleM6 | flake8_pytest_mark/rules.py:30-79 | at most one violation, in column 0 on the node's line, with the rule's code and name, listing failing values only and carrying the last one's detail; none when neither `value_regex` nor `value_match = uuid` is set |
| Rules.RuleM6Values | flake8_pytest_mark/rules.py:49-73 | a value is listed exactly when it is read from some matching decorator and fails |
| Rules.RuleM6Fires | flake8_pytest_mark/rules.py:75-79 | M6 fires exactly when some value read from a matching decorator fails |
| Rules.ArgBatchesMembers | flake8_pytest_mark/rules.py:49-50 | a failing value lies in some batch exactly when it is read from some examined decorator |
| Rules.ArgBatchesCons | flake8_pytest_mark/rules.py:49-50 | the first decorator's values lead the batches |
| Rules.ScanValues | flake8_pytest_mark/rules.py:58-73 | the inner loop appends exactly the failing values and leaves the last failure's detail in `detailed_error` |
| Rules.NothingFailsUnconfigured | flake8_pytest_mark/rules.py:51-55 | with neither `value_regex` nor `value_match`, no value fails |
| Rules.ScanDecorator | flake8_pytest_mark/rules.py:48-73 | one pass of the decorator loop raises `attempt_value_match` exactly when a check is configured and appends exactly the failing values, keeping the last one's detail |
| Rules.RuleM6Loop | flake8_pytest_mark/rules.py:44-79 | the loop as written, with its flags, gives exactly the M6 report |
| Rules.RegexTakesPrecedence | flake8_pytest_mark/rules.py:59-66 | with `value_regex` set, removing `value_match` changes nothing |
| Rules.FailingAllSameCheck | flake8_pytest_mark/rules.py:58-73 | configurations that fail the same values report the same failures |
| Rules.FailingValuesSameCheck | flake8_pytest_mark/rules.py:58-73 | the same, for one decorator's values |
| Rules.RuleM7 | flake8_pytest_mark/rules.py:82-103 | at most one violation, present exactly when some matching decorator has a non-string argument, carrying the rule's code |
| Rules.RuleM7FlagsTruncation | flake8_pytest_mark/rules.py:99-101 | M7 fires exactly when `_get_decorator_args` cut some matching decorator's values short, that is, when M6 skipped values |
| Rules.RuleM8 | flake8_pytest_mark/rules.py:106-126 | at most one violation, present exactly when duplicates are not allowed and two decorators match |
| Rules.AllowsDuplicateSpelling | flake8_pytest_mark/rules.py:124 | duplicates are allowed only by a case spelling of `true`; an absent key is strict |
| Options.SlotNumberOfSlotName | flake8_pytest_mark.py:17 | a slot name reads back to its number, so distinct slots have distinct names |
| Options.SlotRuleCode | flake8_pytest_mark.py:17 | the code of rule `pytest_mark<k>` is `k` padded to two digits |
| Options.StripAll | flake8_pytest_mark.py:35 | each piece is stripped and none is lost |
| Options.ParseLine | flake8_pytest_mark.py:35-38 | an entry has a whitelisted key and came from a line with `=`; a missing value happens exactly on a whitelisted key without `=` |
| Options.ParseKeyValue | flake8_pytest_mark.py:35-38 | `key = value` sets the stripped key to the stripped value exactly when the key is whitelisted |
| Options.ParseTruncatesValue | flake8_pytest_mark.py:35-38 | a value containing `=` keeps only the text before its first `=` |
| Options.ParseLines | flake8_pytest_mark.py:34-38 | one outcome per line, and only whitelisted keys survive |
| Options.ParseLinesAt | flake8_pytest_mark.py:34-38 | each line is parsed on its own |
| Options.Collect | flake8_pytest_mark.py:33-38 | only whitelisted keys are set; a slot parses exactly when no line lacks its value, and an error names the key of the first such line, where Python raises |
| Options.CollectKeys | flake8_pytest_mark.py:33-38 | a key is set exactly when some line sets it |
| Options.CollectLastWins | flake8_pytest_mark.py:33-38 | a key holds the value of the last line that sets it |
| Options.ParseRule | flake8_pytest_mark.py:33-39 | a parsed slot has whitelisted keys only |
| Options.ParseRuleFails | flake8_pytest_mark.py:35-38 | a slot fails exactly when one of its lines names a whitelisted key without `=` |
| Options.ParseRuleLastWins | flake8_pytest_mark.py:38 | a later line overwrites an earlier one's key |
| Options.ParseRules | flake8_pytest_mark.py:29-39 | one parse outcome per slot |
| Options.ParseRulesAt | flake8_pytest_mark.py:29-39 | slot `i` is parsed from its own lines |
| Options.ParseSlots | flake8_pytest_mark.py:29-42 | the parse succeeds exactly when every slot parses; kept slots are numbered within range |
| Options.ParseSlotsSound | flake8_pytest_mark.py:39-42 | every kept slot holds the non-empty configuration its lines set |
| Options.ParseSlotsOrdered | flake8_pytest_mark.py:40-42 | kept slots come in strictly increasing slot order |
| Options.ParseSlotsComplete | flake8_pytest_mark.py:39-42 | every slot that sets a key is kept |
| Options.Registry | flake8_pytest_mark.py:39 | each rule is named after its slot and holds that slot's configuration |
| Options.ParseOptions | flake8_pytest_mark.py:26-42 | the registry has at most 49 rules |
| Options.ParseOptionsOk | flake8_pytest_mark.py:26-42 | the options parse exactly when every slot's lines parse |
| Options.ParseOptionsSlot | flake8_pytest_mark.py:26-42 | each rule is `pytest_mark<k>` for a slot 1..49, and holds the non-empty, whitelisted configuration of slot `k`'s lines |
| Options.ParseOptionsOrdered | flake8_pytest_mark.py:40-42 | rules come in increasing slot order, so no two share a name |
| Options.ParseOptionsComplete | flake8_pytest_mark.py:39-42 | every slot that sets a key becomes rule `pytest_mark<k>` |
| Options.ParsedRulesAreStrict | flake8_pytest_mark.py:37 | no parsed rule allows duplicates, since `allow_duplicate` is not whitelisted |
| MarkChecker.Marked | flake8_pytest_mark.py:79-86 | the `marked` flag is set exactly when some decorator position matches the mark |
| MarkChecker.InlineM5 | flake8_pytest_mark.py:72-88 | at most one violation, only on a test function, at its line in column 0 with the code and mark |
| MarkChecker.InlineM5Fires | flake8_pytest_mark.py:72-88 | M5 fires exactly on a test function none of whose decorators is `@pytest.mark.<name>(...)` |
| MarkChecker.InlineM5AgreesWithRule | flake8_pytest_mark.py:59-88 | on a test function the inline M5 is `rule_m5xx` of rules.py; on any other node it is silent |
| MarkChecker.StringValues | flake8_pytest_mark.py:112 | the value list exists exactly when every argument is a string literal, and then lists their values in order |
| MarkChecker.StringValuesOfReadable | flake8_pytest_mark.py:112 | on an all-string call it reads what `_get_decorator_args` reads |
| MarkChecker.InlineBatches | flake8_pytest_mark.py:110-142 | one value list at most per decorator |
| MarkChecker.InlineBatchesAppend | flake8_pytest_mark.py:110-142 | decorators are scanned in order: the lists of a concatenation are the lists of each part |
| MarkChecker.ReadableDecorators | flake8_pytest_mark.py:111-114 | an order-preserving subsequence holding every occurrence of a decorator whose value list can be built, and nothing else |
| MarkChecker.InlineBatchesAreArgBatches | flake8_pytest_mark.py:110-142 | the inline loop scans exactly what rules.py scans once decorators with a non-string argument are dropped |
| MarkChecker.InlineM6 | flake8_pytest_mark.py:103-148 | at most one violation, only on a test function of a rule with `name`, in column 0 on its line, listing values whose last one fails, with that value's detail |
| MarkChecker.InlineM6SkipsUnreadable | flake8_pytest_mark.py:110-142 | on a test function the inline M6 is rules.py's M6 applied to the decorators with string arguments only |
| MarkChecker.ReduceReadable | flake8_pytest_mark.py:110-142 | dropping unreadable decorators changes nothing when every matching one is readable |
| MarkChecker.InlineM6AgreesWithRule | flake8_pytest_mark.py:103-148 | when no matching decorator has a non-string argument, both M6 implementations report the same |
| MarkChecker.InlineScanDecorator | flake8_pytest_mark.py:110-142 | one pass of the loop appends the failures of the decorator's list if it is read and matches, keeps the detail of the last failure, and appends nothing for a rule without `name` |
| MarkChecker.InlineFailuresStep | flake8_pytest_mark.py:110-142 | scanning one more decorator appends the failures of its value list |
| MarkChecker.InlineM6Loop | flake8_pytest_mark.py:103-148 | the method as written, with its flags and `try`, gives exactly the inline M6 report |
| MarkChecker.AnyNonString | flake8_pytest_mark.py:166-176 | the `message` flag is set exactly when some matching decorator has a non-string argument |
| MarkChecker.InlineM7 | flake8_pytest_mark.py:162-178 | at most one violation, only on a test function of a rule with `name`, in column 0 on its line with the code |
| MarkChecker.InlineM7Fires | flake8_pytest_mark.py:162-178 | M7 fires exactly on a test function with a matching decorator that has a non-string argument, when the rule has `name` |
| MarkChecker.InlineM7AgreesWithRule | flake8_pytest_mark.py:150-178 | on a test function the inline M7 is `rule_m7xx` of rules.py; on any other node it is silent |
| MarkChecker.M5OverRules | flake8_pytest_mark.py:55-57 | at most one M5 per rule, all on the node's line in column 0, none off test functions |
| MarkChecker.M5OverRulesMembers | flake8_pytest_mark.py:55-57 | a violation is yielded for the node exactly when some rule's M5 yields it |
| MarkChecker.M6OverRules | flake8_pytest_mark.py:55-57 | at most one M6 per rule, all on the node's line in column 0, none off test functions |
| MarkChecker.M6OverRulesMembers | flake8_pytest_mark.py:55-57 | a violation is yielded for the node exactly when some rule's M6 yields it |
| MarkChecker.M7OverRules | flake8_pytest_mark.py:55-57 | at most one M7 per rule, all on the node's line in column 0, none off test functions |
| MarkChecker.M7OverRulesMembers | flake8_pytest_mark.py:55-57 | a violation is yielded for the node exactly when some rule's M7 yields it |
| MarkChecker.FamilyOverRules | flake8_pytest_mark.py:54-57 | one family yields at most one violation per rule, none off test functions |
| MarkChecker.ForEachFamily | flake8_pytest_mark.py:54-57 | nothing is yielded off test functions or for an empty registry |
| MarkChecker.NodeViolations | flake8_pytest_mark.py:52-57 | nothing is yielded off test functions or for an empty registry |
| MarkChecker.NodeViolationsBlocks | flake8_pytest_mark.py:52-57 | a node yields all its M5, then all its M6, then all its M7 |
| MarkChecker.NodeViolationsMembers | flake8_pytest_mark.py:52-57 | a node yields exactly the M5, M6 and M7 results of every rule of the registry |
| MarkChecker.NodeViolationsBound | flake8_pytest_mark.py:52-57 | a node yields at most three violations per rule |
| MarkChecker.NodeViolationsAt | flake8_pytest_mark.py:52-57 | each violation of a node is an M5, M6 or M7 on the node's line in column 0 |
| MarkChecker.NodeViolationsOrdered | flake8_pytest_mark.py:52-57 | within a node the codes' series never decreases |
| MarkChecker.FamilyAt | flake8_pytest_mark.py:52-57 | a position of the M5-M6-M7 concatenation falls in exactly one block, which fixes its series |
| MarkChecker.ForEachNode | flake8_pytest_mark.py:53-57 | a violation is yielded exactly when the check of some node of the walk yields it |
| MarkChecker.ForEachNodeAt | flake8_pytest_mark.py:53-57 | every violation of the walk comes from the check of one of its nodes |
| MarkChecker.ForEachNodeAppend | flake8_pytest_mark.py:53-57 | nodes are checked in walk order: a walk in two parts yields the parts' violations one after the other |
| MarkChecker.ForEachNodeBound | flake8_pytest_mark.py:53-57 | a per-node bound multiplies by the number of nodes |
| MarkChecker.ForEachNodeEmpty | flake8_pytest_mark.py:52-57 | with no rules, no node yields anything |
| MarkChecker.Run | flake8_pytest_mark.py:48-57 | `run` fails exactly when a rule lacks `name` and the walk has a function definition; with no rules it yields the single M401 at (0, 0); otherwise it yields exactly the violations of the nodes of the walk |
| MarkChecker.RunViolation | flake8_pytest_mark.py:52-57 | with rules configured, every violation is an M5, M6 or M7 in column 0 on the line of a test function of the walk |
| MarkChecker.RunMembers | flake8_pytest_mark.py:52-57 | with rules configured and every rule named (so `run` does not raise), `run` yields a violation exactly when the M5, M6 or M7 of some rule yields it on some node of the walk |
| RunOrder.RunWalk | flake8_pytest_mark.py:52-57 | with every rule named, `run` succeeds and yields, as a sequence, node after node in walk order: every M5 over the registry, then every M6, then every M7 |
| MarkChecker.RunNeverReportsDuplicates | flake8_pytest_mark.py:52 | `run` never reports M8 |
| MarkChecker.RunAppend | flake8_pytest_mark.py:53-57 | checking a walk in two parts gives the parts' violations one after the other |
| MarkChecker.RunBound | flake8_pytest_mark.py:52-57 | at most three violations per rule and node |
| Scenarios.SlotSeven | flake8_pytest_mark/rules.py:23-24 | slot 7 reports under code `07` |
| Scenarios.MarkShapes | flake8_pytest_mark/rules.py:143-147 | a bare attribute and a call without the `pytest` root do not match; a subscripted middle link does |
| Scenarios.UnmarkedTestFunction | flake8_pytest_mark.py:72-88 | an undecorated `test_login` gets M507 for mark `uuid` |
| Scenarios.ValidUuid | flake8_pytest_mark.py:123-138 | a value the UUID parser accepts gives no M6 |
| Scenarios.InvalidUuid | flake8_pytest_mark.py:123-148 | a rejected value is listed by M6 with the parser's error |
| Scenarios.MixedArguments | flake8_pytest_mark.py:111-142 | `@pytest.mark.uuid("abc", x)` gets M7 and no M6 from the checker, while rules.py's M6 still lists `abc` |
| Scenarios.Duplicates | flake8_pytest_mark/rules.py:124-126 | two uses of the mark are a duplicate unless `allow_duplicate` is `True` |
| Scenarios.NamelessRule | flake8_pytest_mark.py:77 | a rule without `name` makes `run` fail at any function definition, test or not |

## Left out

- flake8_isort.py is not part of this model. It is a separate, older plugin (U501-U504) with its own rules, and it is out of scope.
- `add_options` (flake8_pytest_mark.py:19-24) only registers options with flake8's parser, so it has nothing to verify.
- flake8 splits comma-separated option values into lines, and the model starts from those lines. Each slot's option value is a sequence of lines.
- Regular-expression matching and UUID parsing are parameters (`Rules.Validators`). The model does not define which values match or parse, and treats the UUID error text as opaque.
- The M6 message renders the failing values as a Python list (`str(list)`). The model keeps the list and the detail as structured message fields.
- The model keeps each message's variable parts as fields (`Rules.Message`), not as formatted text.
- The reporter identity in each tuple (`class_type` / `type(self)`) is dropped.
- `ast.walk`'s traversal order is not modelled. The walk is an input sequence of nodes in walk order.
- Python's AST classes are reduced to the expression shapes the plugin inspects.
  - Keyword arguments are not kept, since no rule reads them.
  - `ast.Bytes` arguments, which also carry `.s`, are not distinguished from other non-strings.
  - The literals follow the syntax tree of Python before 3.8, where a number is an `ast.Num` without `.s`. From 3.8 every literal is an `ast.Constant`, whose deprecated `.s` returns the value. There `@pytest.mark.uuid("abc", 1)` reads `1` as a value in both implementations, and the checker's M6 also lists it.
  - `async def` functions are not `ast.FunctionDef` and so, as in the source, they are ignored.
  - The assumptions above imply a Python version window. The registry order (`ParseSlotsOrdered`, `ParseOptionsOrdered`) relies on dicts keeping insertion order, which Python guarantees from 3.7. Numbers without `.s` hold before 3.8. So the model describes Python 3.7. A subscripted middle link such as `@pytest[0].uuid(...)` (the `Subscript` case of `Scenarios.MarkShapes`) parses only from Python 3.9 (PEP 614). On 3.7 that case is unreachable and is kept only to show what the attribute test accepts.
- The class-level, mutable `pytest_marks` registry (flake8_pytest_mark.py:17, 40-42) is passed explicitly. The model does not follow what a second call of `parse_options` would see.
- A `re.error` raised by an invalid `value_regex` is not modelled, because pattern validity is part of the regex parameter.
- Strings.IsDigit: covers the ASCII digits only, whereas `str.isdigit` accepts other Unicode digits. Rule names are always `pytest_mark<k>`, so this cannot matter.
- Strings.Lower: lowers ASCII letters only. No other character lowers to a letter of `true`, so `AllowsDuplicate` is exact.
- Strings.ZFill: does not model the sign handling of `zfill`. The strings it pads are digit strings.
- Options.ParseOptions: a slot's IndexError is reported with the key of the failing line, not with Python's message text.
- Rules.RuleM5, Rules.RuleM6, Rules.RuleM7, Rules.RuleM8: a configuration without `name` is excluded by the requires. The source raises KeyError there (flake8_pytest_mark/rules.py:25, 49, 99, 123). These functions are also modelled as if every node had `lineno` and `decorator_list`. On nodes without them, such as `ast.Expr`, `ast.Assign` or `ast.Module`, the source raises AttributeError (flake8_pytest_mark/rules.py:22, 26, 48, 49, 95, 99, 120, 125), where the model applies the rule to an empty decorator list.
- MarkChecker.Run: the KeyError of a rule without `name` is one `Err` result. The violations yielded before the exception are not modelled.

=== FILE: ast.dfy ===
/** The slice of Python's syntax tree the plugin reads: decorator
    expressions and the nodes produced by walking a module. */
module Ast {
  import opened Wrappers

  /** A decorator expression. Only positional call arguments are kept;
      keyword arguments are never read by the plugin. The literals are those
      of Python's syntax tree before 3.8: only a string literal has `.s`. */
  datatype Expr =
    | Name(id: string)                      // `pytest`
    | Attribute(value: Expr, attr: string)  // `<value>.<attr>`
    | Subscript(value: Expr, index: Expr)   // `<value>[<index>]`: has `.value`, no `.attr`
    | Call(func: Expr, args: seq<Expr>)     // `<func>(<args>)`
    | Str(s: string)                        // a string literal
    | Other                                 // numbers (`ast.Num`), lists, lambdas, ...

  datatype Kind = FunctionDef | OtherKind

  /** One node of the walked tree: its class, its `name`, its `lineno` and
      its `decorator_list`. Python nodes other than definitions have no
      `decorator_list` (and a module has no `lineno`); the model gives them
      an empty list and a line anyway. The checker's own rules read these
      fields on function definitions only, so this is exact there. */
  datatype Node = Node(kind: Kind, name: string, lineno: int, decorators: seq<Expr>)

  // Python attribute lookups; None wherever Python raises AttributeError.

  /** `e.func` */
  function Func(e: Expr): Option<Expr>
  {
    if e.Call? then Some(e.func) else None
  }

  /** `e.attr` */
  function Attr(e: Expr): Option<string>
  {
    if e.Attribute? then Some(e.attr) else None
  }

  /** `e.value` */
  function ValueOf(e: Expr): Option<Expr>
  {
    if e.Attribute? || e.Subscript? then Some(e.value) else None
  }

  /** `e.id` */
  function Id(e: Expr): Option<string>
  {
    if e.Name? then Some(e.id) else None
  }

  /** `e.args` */
  function Args(e: Expr): Option<seq<Expr>>
  {
    if e.Call? then Some(e.args) else None
  }

  /** `e.s` */
  function S(e: Expr): Option<string>
  {
    if e.Str? then Some(e.s) else None
  }
}

=== FILE: checker.dfy ===
/** The checker class of flake8_pytest_mark.py: its own copies of the M5,
    M6 and M7 rule families and the `run` driver that applies them to every
    node of the walked tree. The copies read the decorator the same way as
    flake8_pytest_mark/rules.py (`decorator.func.attr`,
    `decorator.func.value.value.id`), so they share `MatchesMark`; they
    differ in what happens when a lookup fails or `name` is missing. */
module MarkChecker {
  import opened Wrappers
  import opened Seqs
  import opened Strings
  import opened Ast
  import opened Decorators
  import opened Rules

  /** The plugin's `name`, quoted by M401. */
  const PluginName: string := "flake8-pytest-mark"

  /** `isinstance(node, ast.FunctionDef)` and `re.match(r'^test_', node.name)`. */
  predicate IsTestFunction(node: Node)
  {
    node.kind == FunctionDef && StartsWith(node.name, "test_")
  }

  // ---------------------------------------------------------------------
  // M5xx (flake8_pytest_mark.py:59-88)
  // ---------------------------------------------------------------------

  /** The `marked` flag of lines 73-86: some decorator, examined one at a
      time, is `@pytest.mark.<mark>(...)`. */
  function Marked(decorators: seq<Expr>, mark: string): (r: bool)
    ensures r <==> exists i :: 0 <= i < |decorators| && MatchesMark(decorators[i], mark)
  {
    if decorators == [] then false
    else if MatchesMark(decorators[0], mark) then true
    else
      var rest := decorators[1..];
      assert forall i :: 0 <= i < |rest| ==> rest[i] == decorators[i + 1];
      Marked(rest, mark)
  }

  /** `rule_m5xx`. The message is built from `rule_conf['name']` before the
      `test_` check, outside any `try`, so every function definition needs a
      configured `name`. */
  function InlineM5(node: Node, ruleName: string, conf: Conf): (r: seq<Violation>)
    requires node.kind == FunctionDef ==> "name" in conf
    ensures |r| <= 1
    ensures r != [] ==> IsTestFunction(node)
    ensures r != [] ==> r == [Violation(node.lineno, 0, NotMarked(RuleCode(ruleName), conf["name"]))]
  {
    if IsTestFunction(node) && !Marked(node.decorators, conf["name"]) then
      [Violation(node.lineno, 0, NotMarked(RuleCode(ruleName), conf["name"]))]
    else []
  }

  /** M5 fires exactly on a test function with no `@pytest.mark.<name>`
      decorator. */
  lemma InlineM5Fires(node: Node, ruleName: string, conf: Conf)
    requires node.kind == FunctionDef ==> "name" in conf
    ensures InlineM5(node, ruleName, conf) != [] <==>
      (IsTestFunction(node) && forall i :: 0 <= i < |node.decorators| ==> !MatchesMark(node.decorators[i], conf["name"]))
  {
  }

  /** On test functions the checker's M5 agrees with `rule_m5xx` of
      rules.py; on every other node it is silent. */
  lemma InlineM5AgreesWithRule(node: Node, ruleName: string, conf: Conf)
    requires "name" in conf
    ensures InlineM5(node, ruleName, conf) == if IsTestFunction(node) then RuleM5(node, ruleName, conf) else []
  {
    var mark := conf["name"];
    if IsTestFunction(node) {
      var r := RuleM5(node, ruleName, conf);
      if r == [] {
        var d :| d in node.decorators && MatchesMark(d, mark);
        var i :| 0 <= i < |node.decorators| && node.decorators[i] == d;
      } else {
        assert r[0] in r;
      }
    }
  }

  // ---------------------------------------------------------------------
  // M6xx (flake8_pytest_mark.py:90-148)
  // ---------------------------------------------------------------------

  /** `[arg.s for arg in decorator.args]`: the list exists only when every
      argument is a string literal, since the first other one raises. */
  function StringValues(args: seq<Expr>): (r: Option<seq<string>>)
    ensures r.Some? <==> forall i :: 0 <= i < |args| ==> args[i].Str?
    ensures r.Some? ==> |r.value| == |args| && forall i :: 0 <= i < |args| ==> args[i] == Str(r.value[i])
  {
    if args == [] then Some([])
    else
      var rest := args[1..];
      assert forall i :: 0 <= i < |rest| ==> rest[i] == args[i + 1];
      match (S(args[0]), StringValues(rest))
      case (Some(s), Some(values)) => Some([s] + values)
      case _ => None
  }

  /** A decorator whose value list line 112 can build: a call whose
      arguments are all string literals. */
  predicate Readable(d: Expr)
  {
    d.Call? && AllStringArgs(d)
  }

  /** For a readable decorator, line 112 and `_get_decorator_args` of
      rules.py read the same values. */
  lemma StringValuesOfReadable(d: Expr)
    requires Readable(d)
    ensures StringValues(d.args) == Some(GetDecoratorArgs(d))
  {
    assert StringValues(d.args).Some?;
    var values := StringValues(d.args).value;
    var got := GetDecoratorArgs(d);
    assert |got| == |d.args|;
    assert forall i :: 0 <= i < |got| ==> Str(got[i]) == Str(values[i]);
    assert forall i :: 0 <= i < |got| ==> got[i] == values[i];
    assert got == values;
  }

  /** The value lists that lines 110-142 scan, in decorator order: those of
      the matching decorators whose lookups all succeed. */
  function InlineBatches(decorators: seq<Expr>, mark: string): (r: seq<seq<string>>)
    ensures |r| <= |decorators|
  {
    if decorators == [] then []
    else
      var rest := InlineBatches(decorators[1..], mark);
      var d := decorators[0];
      match Args(d)
      case None => rest
      case Some(args) =>
        match StringValues(args)
        case None => rest
        case Some(values) => if MatchesMark(d, mark) then [values] + rest else rest
  }

  lemma {:induction false} InlineBatchesAppend(a: seq<Expr>, b: seq<Expr>, mark: string)
    ensures InlineBatches(a + b, mark) == InlineBatches(a, mark) + InlineBatches(b, mark)
  {
    if a == [] {
      assert a + b == b;
    } else {
      assert (a + b)[0] == a[0];
      assert (a + b)[1..] == a[1..] + b;
      InlineBatchesAppend(a[1..], b, mark);
    }
  }

  /** The decorators line 112 can read, in their original order. */
  function ReadableDecorators(decorators: seq<Expr>): (r: seq<Expr>)
    ensures forall d :: d in r <==> d in decorators && Readable(d)
    ensures IsSubsequence(r, decorators)
    ensures forall d :: multiset(r)[d] == (if Readable(d) then multiset(decorators)[d] else 0)
  {
    if decorators == [] then []
    else
      var rest := ReadableDecorators(decorators[1..]);
      assert decorators == [decorators[0]] + decorators[1..];
      if Readable(decorators[0]) then
        assert ([decorators[0]] + rest)[1..] == rest;
        [decorators[0]] + rest
      else rest
  }

  /** The checker's M6 scans exactly what rules.py's M6 would scan once the
      decorators with a non-string argument are dropped. */
  lemma {:induction false} InlineBatchesAreArgBatches(decorators: seq<Expr>, mark: string)
    ensures InlineBatches(decorators, mark) == ArgBatches(ReduceByMark(ReadableDecorators(decorators), mark))
  {
    if decorators != [] {
      var d := decorators[0];
      var rest := ReadableDecorators(decorators[1..]);
      InlineBatchesAreArgBatches(decorators[1..], mark);
      if Readable(d) {
        StringValuesOfReadable(d);
        assert ReadableDecorators(decorators) == [d] + rest;
        assert ([d] + rest)[1..] == rest;
        if MatchesMark(d, mark) {
          ArgBatchesCons(d, ReduceByMark(rest, mark));
        }
      } else if d.Call? {
        assert StringValues(d.args).None?;
      }
    }
  }

  /** `rule_m6xx` of the checker: as in rules.py, but a decorator with any
      non-string argument is skipped whole, and a rule without `name` makes
      every decorator raise a caught KeyError, so nothing is reported. */
  function InlineM6(node: Node, ruleName: string, conf: Conf, val: Validators): (r: seq<Violation>)
    ensures |r| <= 1
    ensures r != [] ==> IsTestFunction(node) && "name" in conf
    ensures r != [] ==>
      && r[0].line == node.lineno && r[0].col == 0 && r[0].msg.BadValues?
      && r[0].msg.code == RuleCode(ruleName) && r[0].msg.ruleName == ruleName
      && r[0].msg.values != []
      && Fails(conf, val, r[0].msg.values[|r[0].msg.values| - 1])
      && r[0].msg.detail == DetailOf(conf, val, r[0].msg.values[|r[0].msg.values| - 1])
  {
    if IsTestFunction(node) && "name" in conf then
      ReportM6(node.lineno, ruleName, conf, val, InlineBatches(node.decorators, conf["name"]))
    else []
  }

  /** On a test function the checker's M6 is rules.py's M6 applied to the
      decorators with string arguments only. */
  lemma InlineM6SkipsUnreadable(node: Node, ruleName: string, conf: Conf, val: Validators)
    requires IsTestFunction(node) && "name" in conf
    ensures InlineM6(node, ruleName, conf, val) ==
      RuleM6(node.(decorators := ReadableDecorators(node.decorators)), ruleName, conf, val)
  {
    InlineBatchesAreArgBatches(node.decorators, conf["name"]);
  }

  /** Dropping unreadable decorators changes nothing when every matching
      decorator is readable. */
  lemma {:induction false} ReduceReadable(decorators: seq<Expr>, mark: string)
    requires forall i :: 0 <= i < |decorators| && MatchesMark(decorators[i], mark) ==> Readable(decorators[i])
    ensures ReduceByMark(ReadableDecorators(decorators), mark) == ReduceByMark(decorators, mark)
  {
    if decorators != [] {
      var d := decorators[0];
      var rest := ReadableDecorators(decorators[1..]);
      assert forall i :: 0 <= i < |decorators[1..]| ==> decorators[1..][i] == decorators[i + 1];
      ReduceReadable(decorators[1..], mark);
      if Readable(d) {
        assert ([d] + rest)[1..] == rest;
      }
    }
  }

  /** When no matching decorator has a non-string argument, both M6
      implementations report the same thing on a test function. */
  lemma InlineM6AgreesWithRule(node: Node, ruleName: string, conf: Conf, val: Validators)
    requires IsTestFunction(node) && "name" in conf
    requires forall i :: 0 <= i < |node.decorators| && MatchesMark(node.decorators[i], conf["name"]) ==>
      !HasNonStringArg(node.decorators[i])
    ensures InlineM6(node, ruleName, conf, val) == RuleM6(node, ruleName, conf, val)
  {
    var ds := node.decorators;
    forall i | 0 <= i < |ds| && MatchesMark(ds[i], conf["name"])
      ensures Readable(ds[i])
    {
      assert !HasNonStringArg(ds[i]);
    }
    ReduceReadable(ds, conf["name"]);
    InlineM6SkipsUnreadable(node, ruleName, conf, val);
  }

  /** One pass of the loop of lines 110-142: the `try` around the three
      lookups, the `attempt_value_match` flag, and the scan of the values of
      a matching decorator. */
  method InlineScanDecorator(d: Expr, conf: Conf, val: Validators,
                             nonMatching0: seq<string>, detail0: Option<Detail>, attempt0: bool, configured0: bool)
    returns (nonMatching: seq<string>, detail: Option<Detail>, attempt: bool, configured: bool)
    requires attempt0 ==> "value_regex" in conf || "value_match" in conf
    requires forall v :: v in nonMatching0 ==> Fails(conf, val, v)
    requires nonMatching0 != [] ==> configured0
    requires nonMatching0 != [] ==> detail0 == Some(DetailOf(conf, val, nonMatching0[|nonMatching0| - 1]))
    ensures "name" in conf ==> nonMatching == nonMatching0 + FailingAll(conf, val, InlineBatches([d], conf["name"]))
    ensures "name" !in conf ==> nonMatching == nonMatching0
    ensures attempt ==> "value_regex" in conf || "value_match" in conf
    ensures nonMatching != [] ==> configured
    ensures nonMatching != [] ==> detail == Some(DetailOf(conf, val, nonMatching[|nonMatching| - 1]))
  {
    nonMatching, detail, attempt, configured := nonMatching0, detail0, attempt0, configured0;
    assert [d][1..] == [];
    if d.Call? && StringValues(d.args).Some? && CalleeAttr(d).Some? && RootId(d).Some? {
      var values := StringValues(d.args).value;
      if "value_regex" in conf || "value_match" in conf {
        attempt := true;
      }
      if "name" in conf && RootId(d).value == "pytest" && CalleeAttr(d).value == conf["name"] && attempt {
        configured := true;
        nonMatching, detail := ScanValues(conf, val, values, nonMatching, detail);
        assert InlineBatches([d], conf["name"]) == [values];
      } else if "name" in conf && MatchesMark(d, conf["name"]) {
        NothingFailsUnconfigured(conf, val, values);
        assert InlineBatches([d], conf["name"]) == [values];
      }
    }
  }

  /** Scanning one more decorator appends the failures of its list. */
  lemma InlineFailuresStep(ds: seq<Expr>, i: nat, conf: Conf, val: Validators)
    requires i < |ds| && "name" in conf
    ensures FailingAll(conf, val, InlineBatches(ds[..i + 1], conf["name"])) ==
      FailingAll(conf, val, InlineBatches(ds[..i], conf["name"])) + FailingAll(conf, val, InlineBatches([ds[i]], conf["name"]))
  {
    assert ds[..i + 1] == ds[..i] + [ds[i]];
    InlineBatchesAppend(ds[..i], [ds[i]], conf["name"]);
    FailingAllAppend(conf, val, InlineBatches(ds[..i], conf["name"]), InlineBatches([ds[i]], conf["name"]));
  }

  /** Lines 103-148 as written, with the `configured`,
      `attempt_value_match` and `detailed_error` variables and the `try`
      around each decorator, compute `InlineM6`. */
  method InlineM6Loop(node: Node, ruleName: string, conf: Conf, val: Validators) returns (r: seq<Violation>)
    ensures r == InlineM6(node, ruleName, conf, val)
  {
    var configured := false;
    var nonMatching: seq<string> := [];
    var detail: Option<Detail> := None;
    var attempt := false;
    if node.kind == FunctionDef && StartsWith(node.name, "test_") {
      var ds := node.decorators;
      var i := 0;
      while i < |ds|
        invariant 0 <= i <= |ds|
        invariant "name" in conf ==> nonMatching == FailingAll(conf, val, InlineBatches(ds[..i], conf["name"]))
        invariant "name" !in conf ==> nonMatching == []
        invariant attempt ==> "value_regex" in conf || "value_match" in conf
        invariant nonMatching != [] ==> configured
        invariant nonMatching != [] ==> detail == Some(DetailOf(conf, val, nonMatching[|nonMatching| - 1]))
      {
        if "name" in conf {
          InlineFailuresStep(ds, i, conf, val);
        }
        nonMatching, detail, attempt, configured :=
          InlineScanDecorator(ds[i], conf, val, nonMatching, detail, attempt, configured);
        i := i + 1;
      }
      assert ds[..i] == ds;
    }
    if configured && |nonMatching| > 0 {
      r := [Violation(node.lineno, 0, BadValues(RuleCode(ruleName), nonMatching, ruleName, detail.value))];
    } else {
      r := [];
    }
  }

  // ---------------------------------------------------------------------
  // M7xx (flake8_pytest_mark.py:150-178)
  // ---------------------------------------------------------------------

  /** The `message` flag of lines 166-176: some matching decorator has an
      argument that is not a string literal. */
  function AnyNonString(decorators: seq<Expr>, mark: string): (r: bool)
    ensures r <==> exists i :: 0 <= i < |decorators| && MatchesMark(decorators[i], mark) && HasNonStringArg(decorators[i])
  {
    if decorators == [] then false
    else if MatchesMark(decorators[0], mark) && HasNonStringArg(decorators[0]) then true
    else
      var rest := decorators[1..];
      assert forall i :: 0 <= i < |rest| ==> rest[i] == decorators[i + 1];
      AnyNonString(rest, mark)
  }

  /** `rule_m7xx` of the checker. Without `name` every matching lookup
      raises a caught KeyError, so nothing is reported. */
  function InlineM7(node: Node, ruleName: string, conf: Conf): (r: seq<Violation>)
    ensures |r| <= 1
    ensures r != [] ==> IsTestFunction(node) && "name" in conf
    ensures r != [] ==> r == [Violation(node.lineno, 0, NonStringValues(RuleCode(ruleName)))]
  {
    if IsTestFunction(node) && "name" in conf && AnyNonString(node.decorators, conf["name"]) then
      [Violation(node.lineno, 0, NonStringValues(RuleCode(ruleName)))]
    else []
  }

  /** M7 fires exactly on a test function with a `@pytest.mark.<name>`
      decorator that has a non-string argument, and only when the rule has
      a `name`. */
  lemma InlineM7Fires(node: Node, ruleName: string, conf: Conf)
    ensures InlineM7(node, ruleName, conf) != [] <==>
      (IsTestFunction(node) && "name" in conf &&
       exists i :: 0 <= i < |node.decorators| && MatchesMark(node.decorators[i], conf["name"]) && HasNonStringArg(node.decorators[i]))
  {
  }

  /** On test functions the checker's M7 agrees with `rule_m7xx` of
      rules.py; on every other node it is silent. */
  lemma InlineM7AgreesWithRule(node: Node, ruleName: string, conf: Conf)
    requires "name" in conf
    ensures InlineM7(node, ruleName, conf) == if IsTestFunction(node) then RuleM7(node, ruleName, conf) else []
  {
    var mark := conf["name"];
    var ds := node.decorators;
    if IsTestFunction(node) {
      var a := InlineM7(node, ruleName, conf);
      var b := RuleM7(node, ruleName, conf);
      InlineM7Fires(node, ruleName, conf);
      if a != [] {
        var i :| 0 <= i < |ds| && MatchesMark(ds[i], mark) && HasNonStringArg(ds[i]);
        assert ds[i] in ds;
      }
      if b != [] {
        var d :| d in ds && MatchesMark(d, mark) && HasNonStringArg(d);
        var i :| 0 <= i < |ds| && ds[i] == d;
        assert b[0] in b;
        assert b == [b[0]];
      }
    }
  }

  // ---------------------------------------------------------------------
  // run (flake8_pytest_mark.py:48-57)
  // ---------------------------------------------------------------------

  /** A message of one of the families `run` applies: M5, M6 or M7. */
  predicate FromFamilies(m: Message)
  {
    m.NotMarked? || m.BadValues? || m.NonStringValues?
  }

  /** The hundreds digit of a message's code: M401, M5xx, ..., M8xx. */
  function Series(m: Message): nat
  {
    match m
    case NoConfiguration(_) => 4
    case NotMarked(_, _) => 5
    case BadValues(_, _, _, _) => 6
    case NonStringValues(_) => 7
    case Duplicate(_, _) => 8
  }

  /** Every rule of the registry has a `name`, or the walked tree has no
      function definition: otherwise M5 raises KeyError out of `run`. */
  predicate NamesConfigured(nodes: seq<Node>, registry: seq<Rule>)
  {
    forall n, rule :: n in nodes && rule in registry && n.kind == FunctionDef ==> "name" in rule.conf
  }

  /** What escapes `run`: the KeyError of line 77. */
  datatype RunError = MissingName

  // `for rule_name, configured_rule in self.pytest_marks.items()` with one
  // member of `rule_funcs`, in registry order.

  /** M5 over the whole registry. */
  function M5OverRules(node: Node, registry: seq<Rule>): (r: seq<Violation>)
    requires node.kind == FunctionDef ==> forall rule :: rule in registry ==> "name" in rule.conf
    ensures |r| <= |registry|
    ensures !IsTestFunction(node) ==> r == []
    ensures forall x :: x in r ==> x.line == node.lineno && x.col == 0 && x.msg.NotMarked?
  {
    if registry == [] then []
    else
      var here := InlineM5(node, registry[0].name, registry[0].conf);
      var rest := M5OverRules(node, registry[1..]);
      here + rest
  }

  /** M6 over the whole registry. */
  function M6OverRules(node: Node, registry: seq<Rule>, val: Validators): (r: seq<Violation>)
    ensures |r| <= |registry|
    ensures !IsTestFunction(node) ==> r == []
    ensures forall x :: x in r ==> x.line == node.lineno && x.col == 0 && x.msg.BadValues?
  {
    if registry == [] then []
    else
      var here := InlineM6(node, registry[0].name, registry[0].conf, val);
      var rest := M6OverRules(node, registry[1..], val);
      here + rest
  }

  /** M7 over the whole registry. */
  function M7OverRules(node: Node, registry: seq<Rule>): (r: seq<Violation>)
    ensures |r| <= |registry|
    ensures !IsTestFunction(node) ==> r == []
    ensures forall x :: x in r ==> x.line == node.lineno && x.col == 0 && x.msg.NonStringValues?
  {
    if registry == [] then []
    else
      var here := InlineM7(node, registry[0].name, registry[0].conf);
      var rest := M7OverRules(node, registry[1..]);
      here + rest
  }

  /** M5 over the registry yields exactly what some rule's M5 yields. */
  lemma {:induction false} M5OverRulesMembers(node: Node, registry: seq<Rule>, x: Violation)
    requires node.kind == FunctionDef ==> forall rule :: rule in registry ==> "name" in rule.conf
    ensures x in M5OverRules(node, registry) <==>
      exists k :: 0 <= k < |registry| && x in InlineM5(node, registry[k].name, registry[k].conf)
  {
    if registry != [] {
      var rest := registry[1..];
      M5OverRulesMembers(node, rest, x);
      assert forall rule :: rule in rest ==> rule in registry;
      if x in InlineM5(node, registry[0].name, registry[0].conf) {
        assert 0 < |registry|;
      } else if x in M5OverRules(node, rest) {
        var k :| 0 <= k < |rest| && x in InlineM5(node, rest[k].name, rest[k].conf);
        assert rest[k] == registry[k + 1];
      } else {
        forall k | 0 <= k < |registry|
          ensures x !in InlineM5(node, registry[k].name, registry[k].conf)
        {
          if k > 0 {
            assert registry[k] == rest[k - 1];
          }
        }
      }
    }
  }

  /** M6 over the registry yields exactly what some rule's M6 yields. */
  lemma {:induction false} M6OverRulesMembers(node: Node, registry: seq<Rule>, val: Validators, x: Violation)
    ensures x in M6OverRules(node, registry, val) <==>
      exists k :: 0 <= k < |registry| && x in InlineM6(node, registry[k].name, registry[k].conf, val)
  {
    if registry != [] {
      var rest := registry[1..];
      M6OverRulesMembers(node, rest, val, x);
      assert forall rule :: rule in rest ==> rule in registry;
      if x in InlineM6(node, registry[0].name, registry[0].conf, val) {
        assert 0 < |registry|;
      } else if x in M6OverRules(node, rest, val) {
        var k :| 0 <= k < |rest| && x in InlineM6(node, rest[k].name, rest[k].conf, val);
        assert rest[k] == registry[k + 1];
      } else {
        forall k | 0 <= k < |registry|
          ensures x !in InlineM6(node, registry[k].name, registry[k].conf, val)
        {
          if k > 0 {
            assert registry[k] == rest[k - 1];
          }
        }
      }
    }
  }

  /** M7 over the registry yields exactly what some rule's M7 yields. */
  lemma {:induction false} M7OverRulesMembers(node: Node, registry: seq<Rule>, x: Violation)
    ensures x in M7OverRules(node, registry) <==>
      exists k :: 0 <= k < |registry| && x in InlineM7(node, registry[k].name, registry[k].conf)
  {
    if registry != [] {
      var rest := registry[1..];
      M7OverRulesMembers(node, rest, x);
      assert forall rule :: rule in rest ==> rule in registry;
      if x in InlineM7(node, registry[0].name, registry[0].conf) {
        assert 0 < |registry|;
      } else if x in M7OverRules(node, rest) {
        var k :| 0 <= k < |rest| && x in InlineM7(node, rest[k].name, rest[k].conf);
        assert rest[k] == registry[k + 1];
      } else {
        forall k | 0 <= k < |registry|
          ensures x !in InlineM7(node, registry[k].name, registry[k].conf)
        {
          if k > 0 {
            assert registry[k] == rest[k - 1];
          }
        }
      }
    }
  }

  /** The members of `rule_funcs`, in its order. M8 is not among them. */
  datatype Family = Presence | ValueFormat | ValueType

  const RuleFuncs: seq<Family> := [Presence, ValueFormat, ValueType]

  /** One member of `rule_funcs` over the whole registry. */
  function FamilyOverRules(family: Family, node: Node, registry: seq<Rule>, val: Validators): (r: seq<Violation>)
    requires node.kind == FunctionDef ==> forall rule :: rule in registry ==> "name" in rule.conf
    ensures |r| <= |registry|
    ensures !IsTestFunction(node) ==> r == []
  {
    match family
    case Presence => M5OverRules(node, registry)
    case ValueFormat => M6OverRules(node, registry, val)
    case ValueType => M7OverRules(node, registry)
  }

  /** `for rule_func in rule_funcs`: each family over the whole registry,
      one family after the other. */
  function ForEachFamily(families: seq<Family>, node: Node, registry: seq<Rule>, val: Validators): (r: seq<Violation>)
    requires node.kind == FunctionDef ==> forall rule :: rule in registry ==> "name" in rule.conf
    ensures !IsTestFunction(node) ==> r == []
    ensures registry == [] ==> r == []
  {
    if families == [] then []
    else FamilyOverRules(families[0], node, registry, val) + ForEachFamily(families[1..], node, registry, val)
  }

  /** The violations `run` yields for one node. */
  function NodeViolations(node: Node, registry: seq<Rule>, val: Validators): (r: seq<Violation>)
    requires node.kind == FunctionDef ==> forall rule :: rule in registry ==> "name" in rule.conf
    ensures !IsTestFunction(node) ==> r == []
    ensures registry == [] ==> r == []
  {
    ForEachFamily(RuleFuncs, node, registry, val)
  }

  /** A node's violations are all its M5, then all its M6, then all its
      M7: the `rule_funcs` loop sits outside the registry loop. */
  lemma NodeViolationsBlocks(node: Node, registry: seq<Rule>, val: Validators)
    requires node.kind == FunctionDef ==> forall rule :: rule in registry ==> "name" in rule.conf
    ensures NodeViolations(node, registry, val) ==
      M5OverRules(node, registry) + M6OverRules(node, registry, val) + M7OverRules(node, registry)
  {
    var f := RuleFuncs;
    assert f[0] == Presence && f[1..][0] == ValueFormat && f[1..][1..][0] == ValueType && f[1..][1..][1..] == [];
    assert ForEachFamily(f[1..][1..][1..], node, registry, val) == [];
    assert ForEachFamily(f[1..][1..], node, registry, val) == M7OverRules(node, registry);
    assert ForEachFamily(f[1..], node, registry, val) == M6OverRules(node, registry, val) + M7OverRules(node, registry);
  }

  /** At most one violation per family and rule. */
  lemma NodeViolationsBound(node: Node, registry: seq<Rule>, val: Validators)
    requires node.kind == FunctionDef ==> forall rule :: rule in registry ==> "name" in rule.conf
    ensures |NodeViolations(node, registry, val)| <= 3 * |registry|
  {
    NodeViolationsBlocks(node, registry, val);
  }

  /** Each violation of a node sits on the node's line, in column 0, and
      is an M5, M6 or M7. */
  lemma NodeViolationsAt(node: Node, registry: seq<Rule>, val: Validators, k: nat)
    requires node.kind == FunctionDef ==> forall rule :: rule in registry ==> "name" in rule.conf
    requires k < |NodeViolations(node, registry, val)|
    ensures var x := NodeViolations(node, registry, val)[k];
      x.line == node.lineno && x.col == 0 && FromFamilies(x.msg)
  {
    var m5 := M5OverRules(node, registry);
    var m6 := M6OverRules(node, registry, val);
    var m7 := M7OverRules(node, registry);
    NodeViolationsBlocks(node, registry, val);
    FamilyAt(m5 + m6 + m7, m5, m6, m7, k);
  }

  /** Within one node the codes never go down: every M5 comes before every
      M6, and every M6 before every M7. */
  lemma NodeViolationsOrdered(node: Node, registry: seq<Rule>, val: Validators, i: nat, j: nat)
    requires node.kind == FunctionDef ==> forall rule :: rule in registry ==> "name" in rule.conf
    requires i < j < |NodeViolations(node, registry, val)|
    ensures Series(NodeViolations(node, registry, val)[i].msg) <= Series(NodeViolations(node, registry, val)[j].msg)
  {
    var m5 := M5OverRules(node, registry);
    var m6 := M6OverRules(node, registry, val);
    var m7 := M7OverRules(node, registry);
    NodeViolationsBlocks(node, registry, val);
    FamilyAt(m5 + m6 + m7, m5, m6, m7, i);
    FamilyAt(m5 + m6 + m7, m5, m6, m7, j);
  }

  /** Which of the three blocks position `k` falls in, and so its series. */
  lemma FamilyAt(r: seq<Violation>, m5: seq<Violation>, m6: seq<Violation>, m7: seq<Violation>, k: nat)
    requires r == m5 + m6 + m7 && k < |r|
    requires forall x :: x in m5 ==> x.msg.NotMarked?
    requires forall x :: x in m6 ==> x.msg.BadValues?
    requires forall x :: x in m7 ==> x.msg.NonStringValues?
    ensures r[k] in m5 + m6 + m7
    ensures k < |m5| ==> r[k] == m5[k] && Series(r[k].msg) == 5
    ensures |m5| <= k < |m5| + |m6| ==> r[k] == m6[k - |m5|] && Series(r[k].msg) == 6
    ensures |m5| + |m6| <= k ==> r[k] == m7[k - |m5| - |m6|] && Series(r[k].msg) == 7
  {
    if k < |m5| {
      assert r[k] == m5[k] && m5[k] in m5;
    } else if k < |m5| + |m6| {
      assert r[k] == m6[k - |m5|] && m6[k - |m5|] in m6;
    } else {
      assert r[k] == m7[k - |m5| - |m6|] && m7[k - |m5| - |m6|] in m7;
    }
  }

  /** `for node in ast.walk(self.tree)`: the same check on every node of
      the walk, in walk order. */
  function ForEachNode(nodes: seq<Node>, check: Node --> seq<Violation>): (r: seq<Violation>)
    requires forall n :: n in nodes ==> check.requires(n)
    ensures nodes == [] ==> r == []
    ensures forall x :: x in r <==> exists i :: 0 <= i < |nodes| && x in check(nodes[i])
  {
    if nodes == [] then []
    else
      assert nodes[0] in nodes;
      assert forall n :: n in nodes[1..] ==> n in nodes;
      assert forall i :: 1 <= i < |nodes| ==> nodes[1..][i - 1] == nodes[i];
      check(nodes[0]) + ForEachNode(nodes[1..], check)
  }

  /** Every violation of the walk comes from the check of one of its nodes. */
  lemma {:induction false} ForEachNodeAt(nodes: seq<Node>, check: Node --> seq<Violation>, k: nat)
    requires forall n :: n in nodes ==> check.requires(n)
    requires k < |ForEachNode(nodes, check)|
    ensures exists i, j :: 0 <= i < |nodes| && 0 <= j < |check(nodes[i])| && ForEachNode(nodes, check)[k] == check(nodes[i])[j]
  {
    assert nodes[0] in nodes;
    assert forall n :: n in nodes[1..] ==> n in nodes;
    var here := check(nodes[0]);
    if k < |here| {
      assert ForEachNode(nodes, check)[k] == here[k];
    } else {
      var rest := nodes[1..];
      assert ForEachNode(nodes, check)[k] == ForEachNode(rest, check)[k - |here|];
      ForEachNodeAt(rest, check, k - |here|);
      var i, j :| 0 <= i < |rest| && 0 <= j < |check(rest[i])| && ForEachNode(rest, check)[k - |here|] == check(rest[i])[j];
      assert rest[i] == nodes[i + 1];
    }
  }

  /** The walk is processed node by node: the violations of a longer walk
      extend those of its prefix. */
  lemma {:induction false} ForEachNodeAppend(a: seq<Node>, b: seq<Node>, check: Node --> seq<Violation>)
    requires forall n :: n in a + b ==> check.requires(n)
    ensures forall n :: n in a ==> check.requires(n)
    ensures forall n :: n in b ==> check.requires(n)
    ensures ForEachNode(a + b, check) == ForEachNode(a, check) + ForEachNode(b, check)
  {
    assert forall n :: n in a ==> n in a + b;
    assert forall n :: n in b ==> n in a + b;
    if a == [] {
      assert a + b == b;
    } else {
      assert (a + b)[0] == a[0];
      assert (a + b)[1..] == a[1..] + b;
      ForEachNodeAppend(a[1..], b, check);
    }
  }

  /** A check yielding at most `c` violations per node yields at most
      `c` times the number of nodes. */
  lemma {:induction false} ForEachNodeBound(nodes: seq<Node>, check: Node --> seq<Violation>, c: nat)
    requires forall n :: n in nodes ==> check.requires(n) && |check(n)| <= c
    ensures |ForEachNode(nodes, check)| <= c * |nodes|
  {
    if nodes != [] {
      assert nodes[0] in nodes;
      assert forall n :: n in nodes[1..] ==> n in nodes;
      ForEachNodeBound(nodes[1..], check, c);
      assert c * |nodes| == c + c * |nodes[1..]|;
    }
  }

  /** The per-node check of `run` under a registry. */
  function NodeCheck(registry: seq<Rule>, val: Validators): Node --> seq<Violation>
  {
    (n: Node) requires n.kind == FunctionDef ==> forall rule :: rule in registry ==> "name" in rule.conf =>
      NodeViolations(n, registry, val)
  }

  /** `run`: M401 first when the registry is empty (and then nothing else,
      as every loop over the registry is empty), otherwise the violations of
      every node; the KeyError of a rule without `name` escapes as soon as
      the walk reaches a function definition. */
  function Run(nodes: seq<Node>, registry: seq<Rule>, val: Validators): (r: Result<seq<Violation>, RunError>)
    ensures r.Err? <==> !NamesConfigured(nodes, registry)
    ensures registry == [] ==> r.Ok? && r.value == [Violation(0, 0, NoConfiguration(PluginName))]
    ensures registry != [] && r.Ok? ==> forall x :: x in r.value <==>
      exists n :: n in nodes && x in NodeViolations(n, registry, val)
  {
    if !NamesConfigured(nodes, registry) then Err(MissingName)
    else
      var check := NodeCheck(registry, val);
      assert forall n :: n in nodes ==> check.requires(n);
      if registry == [] then
        ForEachNodeEmpty(nodes, registry, val);
        Ok([Violation(0, 0, NoConfiguration(PluginName))] + ForEachNode(nodes, check))
      else Ok(ForEachNode(nodes, check))
  }

  /** With no rules every node's check is empty. */
  lemma {:induction false} ForEachNodeEmpty(nodes: seq<Node>, registry: seq<Rule>, val: Validators)
    requires registry == []
    ensures forall n :: n in nodes ==> NodeCheck(registry, val).requires(n)
    ensures ForEachNode(nodes, NodeCheck(registry, val)) == []
  {
    if nodes != [] {
      assert forall n :: n in nodes[1..] ==> n in nodes;
      ForEachNodeEmpty(nodes[1..], registry, val);
    }
  }

  /** With a configured registry every violation is an M5, M6 or M7 in
      column 0 on the line of a test function of the walk. */
  lemma RunViolation(nodes: seq<Node>, registry: seq<Rule>, val: Validators, x: Violation)
    requires Run(nodes, registry, val).Ok? && registry != [] && x in Run(nodes, registry, val).value
    ensures x.col == 0 && FromFamilies(x.msg)
    ensures exists n :: n in nodes && IsTestFunction(n) && x.line == n.lineno
  {
    var check := NodeCheck(registry, val);
    assert forall n :: n in nodes ==> check.requires(n);
    var r := ForEachNode(nodes, check);
    var k :| 0 <= k < |r| && r[k] == x;
    ForEachNodeAt(nodes, check, k);
    var i, j :| 0 <= i < |nodes| && 0 <= j < |check(nodes[i])| && r[k] == check(nodes[i])[j];
    assert nodes[i] in nodes;
    NodeViolationsAt(nodes[i], registry, val, j);
  }

  /** A rule's M5, M6 or M7 result on a node. */
  predicate RuleYields(node: Node, rule: Rule, val: Validators, x: Violation)
    requires node.kind == FunctionDef ==> "name" in rule.conf
  {
    || x in InlineM5(node, rule.name, rule.conf)
    || x in InlineM6(node, rule.name, rule.conf, val)
    || x in InlineM7(node, rule.name, rule.conf)
  }

  /** A node yields exactly the M5, M6 and M7 results of every rule. */
  lemma NodeViolationsMembers(node: Node, registry: seq<Rule>, val: Validators, x: Violation)
    requires node.kind == FunctionDef ==> forall rule :: rule in registry ==> "name" in rule.conf
    ensures x in NodeViolations(node, registry, val) <==>
      exists k :: 0 <= k < |registry| && RuleYields(node, registry[k], val, x)
  {
    NodeViolationsBlocks(node, registry, val);
    M5OverRulesMembers(node, registry, x);
    M6OverRulesMembers(node, registry, val, x);
    M7OverRulesMembers(node, registry, x);
  }

  /** What `run` yields with rules configured: exactly the M5, M6 and M7
      results of every rule on every node of the walk. */
  lemma RunMembers(nodes: seq<Node>, registry: seq<Rule>, val: Validators, x: Violation)
    requires registry != [] && NamesConfigured(nodes, registry)
    ensures x in Run(nodes, registry, val).value <==>
      exists n, k :: n in nodes && 0 <= k < |registry| && RuleYields(n, registry[k], val, x)
  {
    forall n | n in nodes
      ensures x in NodeViolations(n, registry, val) <==>
        exists k :: 0 <= k < |registry| && RuleYields(n, registry[k], val, x)
    {
      NodeViolationsMembers(n, registry, val, x);
    }
  }

  /** The checker never reports a duplicate mark: M8 is not wired into
      `run`. */
  lemma RunNeverReportsDuplicates(nodes: seq<Node>, registry: seq<Rule>, val: Validators)
    requires Run(nodes, registry, val).Ok?
    ensures forall x :: x in Run(nodes, registry, val).value ==> !x.msg.Duplicate?
  {
    forall x | x in Run(nodes, registry, val).value
      ensures !x.msg.Duplicate?
    {
      if registry != [] {
        RunViolation(nodes, registry, val, x);
      }
    }
  }

  /** Checking a walk in two parts gives the two parts' violations, one
      after the other. */
  lemma RunAppend(a: seq<Node>, b: seq<Node>, registry: seq<Rule>, val: Validators)
    requires registry != [] && Run(a + b, registry, val).Ok?
    ensures Run(a, registry, val).Ok? && Run(b, registry, val).Ok?
    ensures Run(a + b, registry, val).value == Run(a, registry, val).value + Run(b, registry, val).value
  {
    assert forall n :: n in a ==> n in a + b;
    assert forall n :: n in b ==> n in a + b;
    ForEachNodeAppend(a, b, NodeCheck(registry, val));
  }

  /** At most one violation per family, node and rule. */
  lemma RunBound(nodes: seq<Node>, registry: seq<Rule>, val: Validators)
    requires registry != [] && Run(nodes, registry, val).Ok?
    ensures |Run(nodes, registry, val).value| <= (3 * |registry|) * |nodes|
  {
    var check := NodeCheck(registry, val);
    forall n | n in nodes
      ensures check.requires(n) && |check(n)| <= 3 * |registry|
    {
      NodeViolationsBound(n, registry, val);
    }
    ForEachNodeBound(nodes, check, 3 * |registry|);
  }
}

=== FILE: decorators.dfy ===
/** The decorator primitives of flake8_pytest_mark/rules.py: selecting the
    `@pytest.mark.<mark>(...)` decorators and reading their string values. */
module Decorators {
  import opened Wrappers
  import opened Seqs
  import opened Ast

  /** `decorator.func.attr` */
  function CalleeAttr(d: Expr): Option<string>
  {
    match Func(d)
    case None => None
    case Some(f) => Attr(f)
  }

  /** `decorator.func.value.value.id` */
  function RootId(d: Expr): Option<string>
  {
    match Func(d)
    case None => None
    case Some(f) =>
      match ValueOf(f)
      case None => None
      case Some(middle) =>
        match ValueOf(middle)
        case None => None
        case Some(root) => Id(root)
  }

  /** The test of `_reduce_decorators_by_mark`: the last attribute of the
      callee is `mark` and the callee's root two links down is the name
      `pytest`. A lookup that fails makes the decorator a non-match. */
  predicate MatchesMark(d: Expr, mark: string)
  {
    CalleeAttr(d) == Some(mark) && RootId(d) == Some("pytest")
  }

  /** The decorator shapes that match: a call whose callee is `X.mark`
      with `X.value == pytest`; the middle link is never inspected. */
  lemma MatchesMarkShape(d: Expr, mark: string)
    ensures MatchesMark(d, mark) <==>
      && d.Call? && d.func.Attribute? && d.func.attr == mark
      && (d.func.value.Attribute? || d.func.value.Subscript?)
      && d.func.value.value == Name("pytest")
  {
  }

  /** `_reduce_decorators_by_mark(decorators, mark)`: the matching
      decorators, in their original order. */
  function ReduceByMark(decorators: seq<Expr>, mark: string): (r: seq<Expr>)
    ensures |r| <= |decorators|
    ensures forall d :: d in r <==> d in decorators && MatchesMark(d, mark)
  {
    if decorators == [] then []
    else
      var rest := ReduceByMark(decorators[1..], mark);
      assert decorators == [decorators[0]] + decorators[1..];
      if MatchesMark(decorators[0], mark) then [decorators[0]] + rest else rest
  }

  /** The filter keeps order and multiplicity: it is the subsequence that
      holds every occurrence of a matching decorator and nothing else. */
  lemma {:induction false} ReduceByMarkIsFilter(decorators: seq<Expr>, mark: string)
    ensures IsSubsequence(ReduceByMark(decorators, mark), decorators)
    ensures forall d :: multiset(ReduceByMark(decorators, mark))[d] == (if MatchesMark(d, mark) then multiset(decorators)[d] else 0)
  {
    if decorators != [] {
      var rest := ReduceByMark(decorators[1..], mark);
      ReduceByMarkIsFilter(decorators[1..], mark);
      assert decorators == [decorators[0]] + decorators[1..];
      if MatchesMark(decorators[0], mark) {
        assert ([decorators[0]] + rest)[1..] == rest;
      }
    }
  }

  /** The filter distributes over concatenation: decorators are examined
      one at a time and independently. */
  lemma {:induction false} ReduceByMarkAppend(a: seq<Expr>, b: seq<Expr>, mark: string)
    ensures ReduceByMark(a + b, mark) == ReduceByMark(a, mark) + ReduceByMark(b, mark)
  {
    if a == [] {
      assert a + b == b;
    } else {
      assert (a + b)[0] == a[0];
      assert (a + b)[1..] == a[1..] + b;
      ReduceByMarkAppend(a[1..], b, mark);
    }
  }

  /** Two distinct positions of `decorators` hold a matching decorator. */
  predicate MatchesTwice(decorators: seq<Expr>, mark: string)
  {
    exists i, j :: 0 <= i < j < |decorators|
      && MatchesMark(decorators[i], mark) && MatchesMark(decorators[j], mark)
  }

  /** More than one decorator survives the filter exactly when two distinct
      positions of the list hold a matching decorator. */
  lemma ReduceByMarkMoreThanOne(decorators: seq<Expr>, mark: string)
    ensures |ReduceByMark(decorators, mark)| > 1 <==> MatchesTwice(decorators, mark)
  {
    if |ReduceByMark(decorators, mark)| > 1 {
      MoreThanOneMatchesTwice(decorators, mark);
    }
    if MatchesTwice(decorators, mark) {
      MatchesTwiceMoreThanOne(decorators, mark);
    }
  }

  lemma {:induction false} MoreThanOneMatchesTwice(decorators: seq<Expr>, mark: string)
    requires |ReduceByMark(decorators, mark)| > 1
    ensures MatchesTwice(decorators, mark)
  {
    var rest := decorators[1..];
    var restReduced := ReduceByMark(rest, mark);
    if MatchesMark(decorators[0], mark) {
      assert restReduced[0] in restReduced;
      var j :| 0 <= j < |rest| && rest[j] == restReduced[0];
      assert decorators[j + 1] == rest[j];
      assert MatchesMark(decorators[0], mark) && MatchesMark(decorators[j + 1], mark);
    } else {
      MoreThanOneMatchesTwice(rest, mark);
      var i, j :| 0 <= i < j < |rest| && MatchesMark(rest[i], mark) && MatchesMark(rest[j], mark);
      assert decorators[i + 1] == rest[i] && decorators[j + 1] == rest[j];
      assert MatchesMark(decorators[i + 1], mark) && MatchesMark(decorators[j + 1], mark);
    }
  }

  lemma {:induction false} MatchesTwiceMoreThanOne(decorators: seq<Expr>, mark: string)
    requires MatchesTwice(decorators, mark)
    ensures |ReduceByMark(decorators, mark)| > 1
  {
    var rest := decorators[1..];
    var i, j :| 0 <= i < j < |decorators|
      && MatchesMark(decorators[i], mark) && MatchesMark(decorators[j], mark);
    assert decorators[j] == rest[j - 1];
    if i == 0 {
      assert decorators[j] in ReduceByMark(rest, mark);
    } else {
      assert rest[i - 1] == decorators[i];
      assert MatchesMark(rest[i - 1], mark) && MatchesMark(rest[j - 1], mark);
      MatchesTwiceMoreThanOne(rest, mark);
    }
  }

  /** The string values of the longest all-literal prefix of `args`. */
  function StringPrefix(args: seq<Expr>): (r: seq<string>)
    ensures |r| <= |args|
    ensures forall i :: 0 <= i < |r| ==> args[i] == Str(r[i])
    ensures |r| < |args| ==> !args[|r|].Str?
  {
    match (if args == [] then None else S(args[0]))
    case None => []
    case Some(s) => [s] + StringPrefix(args[1..])
  }

  /** `_get_decorator_args(decorator)`: one `try` wraps the whole loop, so
      the first argument without `.s` ends the list. */
  function GetDecoratorArgs(d: Expr): (r: seq<string>)
    ensures !d.Call? ==> r == []
    ensures d.Call? ==> |r| <= |d.args|
    ensures d.Call? ==> forall i :: 0 <= i < |r| ==> d.args[i] == Str(r[i])
    ensures d.Call? ==> forall i :: 0 <= i < |d.args| && !d.args[i].Str? ==> |r| <= i
    ensures d.Call? && |r| < |d.args| ==> !d.args[|r|].Str?
  {
    match Args(d)
    case None => []
    case Some(args) => StringPrefix(args)
  }

  /** Every argument is a string literal. */
  predicate AllStringArgs(d: Expr)
    requires d.Call?
  {
    forall i :: 0 <= i < |d.args| ==> d.args[i].Str?
  }

  /** The extractor returns every argument's value exactly when no argument
      is a non-string: the values it drops are those after a non-string. */
  lemma GetDecoratorArgsComplete(d: Expr)
    requires d.Call?
    ensures |GetDecoratorArgs(d)| == |d.args| <==> AllStringArgs(d)
  {
  }
}

=== FILE: options.dfy ===
/** `MarkChecker.parse_options` (flake8_pytest_mark.py:26-42): turning the
    option lines of the slots `pytest_mark1` .. `pytest_mark49` into the
    rule registry. */
module Options {
  import opened Wrappers
  import opened Strings
  import opened Rules

  /** The keys a rule line may set. `allow_duplicate` is not one of them. */
  const Whitelist: set<string> := {"name", "value_match", "value_regex"}

  /** The slots are numbered 1 to 49 (`range(1, 50)`). */
  const SlotCount: nat := 49

  const SlotPrefix: string := "pytest_mark"

  /** `"pytest_mark{}".format(k)` */
  function SlotName(k: nat): string
  {
    SlotPrefix + NatToString(k)
  }

  /** The number `k` of a name `pytest_mark<k>`, or -1 for any other name. */
  function SlotNumber(name: string): int
  {
    if |name| > |SlotPrefix| && name[..|SlotPrefix|] == SlotPrefix && AllDigits(name[|SlotPrefix|..])
    then DigitsToNat(name[|SlotPrefix|..])
    else -1
  }

  /** Slot names are read back to their number, so distinct slots have
      distinct names. */
  lemma SlotNumberOfSlotName(k: nat)
    ensures SlotNumber(SlotName(k)) == k
  {
    var name := SlotName(k);
    assert name[..|SlotPrefix|] == SlotPrefix;
    assert name[|SlotPrefix|..] == NatToString(k);
    NatToStringRoundTrip(k);
  }

  /** Rule names carry the slot number as their only digits, so the rule
      code is the slot number padded to two digits. */
  lemma SlotRuleCode(k: nat)
    ensures RuleCode(SlotName(k)) == ZFill(NatToString(k), 2)
  {
    RuleCodeOfSuffix(SlotPrefix, NatToString(k));
  }

  /** What one option line contributes. A whitelisted key with no `=` makes
      the source index past the end of the split line (IndexError). */
  datatype LineParse = Skipped | Entry(key: string, value: string) | MissingValue(key: string)

  /** The error that escapes `parse_options`: a whitelisted key written
      without a value. */
  datatype ParseError = IndexError(key: string)

  /** `[x.strip() for x in pieces]` */
  function StripAll(pieces: seq<string>): (r: seq<string>)
    ensures |r| == |pieces|
    ensures forall i :: 0 <= i < |pieces| ==> r[i] == Strip(pieces[i])
  {
    if pieces == [] then [] else [Strip(pieces[0])] + StripAll(pieces[1..])
  }

  /** Lines 35-38: split on every `=`, strip every piece, keep a whitelisted
      first piece with the second piece as its value. */
  function ParseLine(line: string): (r: LineParse)
    ensures r.Entry? ==> r.key in Whitelist && '=' in line
    ensures r.MissingValue? <==> '=' !in line && Strip(line) in Whitelist
    ensures r.MissingValue? ==> r.key == Strip(line)
  {
    var pieces := Split(line, '=');
    var a := StripAll(pieces);
    assert |pieces| == 1 ==> pieces[0] == line;
    if a[0] in Whitelist then
      if |a| >= 2 then Entry(a[0], a[1]) else MissingValue(a[0])
    else Skipped
  }

  /** `key = value` with neither part containing `=` sets the stripped key
      to the stripped value when the key is whitelisted. */
  lemma ParseKeyValue(key: string, value: string)
    requires '=' !in key && '=' !in value
    ensures ParseLine(key + "=" + value) ==
      if Strip(key) in Whitelist then Entry(Strip(key), Strip(value)) else Skipped
  {
    assert key + "=" + value == key + ['='] + value;
    SplitAfterFirst(key, value, '=');
    assert Split(value, '=') == [value];
  }

  /** A value containing `=` keeps only the text up to the second `=`. */
  lemma ParseTruncatesValue(key: string, value: string, rest: string)
    requires '=' !in key && '=' !in value
    ensures ParseLine(key + "=" + value + "=" + rest) == ParseLine(key + "=" + value)
  {
    assert key + "=" + value + "=" + rest == key + ['='] + (value + ['='] + rest);
    assert key + "=" + value == key + ['='] + value;
    SplitAfterFirst(key, value + ['='] + rest, '=');
    SplitAfterFirst(value, rest, '=');
    SplitAfterFirst(key, value, '=');
  }

  /** Every line of a slot, parsed on its own. */
  function ParseLines(lines: seq<string>): (r: seq<LineParse>)
    ensures |r| == |lines|
    ensures forall i :: 0 <= i < |r| && !r[i].Skipped? ==> r[i].key in Whitelist
  {
    if lines == [] then [] else [ParseLine(lines[0])] + ParseLines(lines[1..])
  }

  /** Entry `i` of the parsed lines is line `i` parsed. */
  lemma {:induction false} ParseLinesAt(lines: seq<string>, i: nat)
    requires i < |lines|
    ensures ParseLines(lines)[i] == ParseLine(lines[i])
  {
    if i > 0 {
      ParseLinesAt(lines[1..], i - 1);
    }
  }

  /** Lines 33-38 for one slot, after each line is parsed: entries are
      stored in order, so a later line overwrites an earlier one, and the
      first line with a missing value raises. */
  function Collect(parsed: seq<LineParse>): (r: Result<Conf, ParseError>)
    requires forall i :: 0 <= i < |parsed| && !parsed[i].Skipped? ==> parsed[i].key in Whitelist
    ensures r.Ok? ==> r.value.Keys <= Whitelist
    ensures r.Ok? <==> forall i :: 0 <= i < |parsed| ==> !parsed[i].MissingValue?
    ensures r.Err? ==> exists i ::
      && 0 <= i < |parsed| && parsed[i] == MissingValue(r.error.key)
      && forall j :: 0 <= j < i ==> !parsed[j].MissingValue?
  {
    if parsed == [] then Ok(map[])
    else
      var init := parsed[..|parsed| - 1];
      assert forall i :: 0 <= i < |init| ==> init[i] == parsed[i];
      match Collect(init)
      case Err(e) => Err(e)
      case Ok(conf) =>
        match parsed[|parsed| - 1]
        case Skipped => Ok(conf)
        case Entry(k, v) => Ok(conf[k := v])
        case MissingValue(k) => Err(IndexError(k))
  }

  /** A key is set exactly when some entry sets it. */
  lemma {:induction false} CollectKeys(parsed: seq<LineParse>, k: string)
    requires forall i :: 0 <= i < |parsed| && !parsed[i].Skipped? ==> parsed[i].key in Whitelist
    requires Collect(parsed).Ok?
    ensures k in Collect(parsed).value <==>
      exists i :: 0 <= i < |parsed| && parsed[i].Entry? && parsed[i].key == k
  {
    if parsed != [] {
      var init := parsed[..|parsed| - 1];
      assert forall i :: 0 <= i < |init| ==> init[i] == parsed[i];
      CollectKeys(init, k);
    }
  }

  /** A key's value is the one given by the last entry for that key. */
  lemma {:induction false} CollectLastWins(parsed: seq<LineParse>, k: string, i: nat)
    requires forall i :: 0 <= i < |parsed| && !parsed[i].Skipped? ==> parsed[i].key in Whitelist
    requires Collect(parsed).Ok?
    requires i < |parsed| && parsed[i].Entry? && parsed[i].key == k
    requires forall j :: i < j < |parsed| ==> !(parsed[j].Entry? && parsed[j].key == k)
    ensures k in Collect(parsed).value && Collect(parsed).value[k] == parsed[i].value
  {
    var init := parsed[..|parsed| - 1];
    assert forall j :: 0 <= j < |init| ==> init[j] == parsed[j];
    if i < |parsed| - 1 {
      CollectLastWins(init, k, i);
    }
  }

  /** The rule configuration of one slot's lines. */
  function ParseRule(lines: seq<string>): (r: Result<Conf, ParseError>)
    ensures r.Ok? ==> r.value.Keys <= Whitelist
  {
    Collect(ParseLines(lines))
  }

  /** A slot fails to parse exactly when one of its lines names a
      whitelisted key without `=`. */
  lemma ParseRuleFails(lines: seq<string>)
    ensures ParseRule(lines).Err? <==>
      exists i :: 0 <= i < |lines| && '=' !in lines[i] && Strip(lines[i]) in Whitelist
  {
    var parsed := ParseLines(lines);
    if ParseRule(lines).Err? {
      var i :| 0 <= i < |parsed| && parsed[i].MissingValue?;
      ParseLinesAt(lines, i);
    }
    if exists i :: 0 <= i < |lines| && '=' !in lines[i] && Strip(lines[i]) in Whitelist {
      var i :| 0 <= i < |lines| && '=' !in lines[i] && Strip(lines[i]) in Whitelist;
      ParseLinesAt(lines, i);
    }
  }

  /** A key is configured with the value of the last line that sets it. */
  lemma ParseRuleLastWins(lines: seq<string>, i: nat)
    requires ParseRule(lines).Ok?
    requires i < |lines| && ParseLine(lines[i]).Entry?
    requires forall j :: i < j < |lines| ==> !(ParseLine(lines[j]).Entry? && ParseLine(lines[j]).key == ParseLine(lines[i]).key)
    ensures var e := ParseLine(lines[i]);
      e.key in ParseRule(lines).value && ParseRule(lines).value[e.key] == e.value
  {
    var parsed := ParseLines(lines);
    forall j | i <= j < |lines|
      ensures parsed[j] == ParseLine(lines[j])
    {
      ParseLinesAt(lines, j);
    }
    CollectLastWins(parsed, parsed[i].key, i);
  }

  /** A slot with its number and the configuration its lines set. */
  datatype Slot = Slot(number: nat, conf: Conf)

  /** Every slot's lines, parsed on their own. A slot with no lines parses
      to the empty configuration, which is dropped like one whose lines set
      no whitelisted key. */
  function ParseRules(options: seq<seq<string>>): (r: seq<Result<Conf, ParseError>>)
    ensures |r| == |options|
  {
    if options == [] then [] else [ParseRule(options[0])] + ParseRules(options[1..])
  }

  lemma {:induction false} ParseRulesAt(options: seq<seq<string>>, i: nat)
    requires i < |options|
    ensures ParseRules(options)[i] == ParseRule(options[i])
  {
    if i > 0 {
      ParseRulesAt(options[1..], i - 1);
    }
  }

  /** Lines 31-42 over the parsed slots numbered `slot`, `slot + 1`, ...:
      a slot that sets no key is dropped, and the first slot that failed
      aborts the parse. */
  function ParseSlots(confs: seq<Result<Conf, ParseError>>, slot: nat): (r: Result<seq<Slot>, ParseError>)
    ensures r.Ok? <==> forall i :: 0 <= i < |confs| ==> confs[i].Ok?
    ensures r.Ok? ==> |r.value| <= |confs|
    ensures r.Ok? ==> forall i :: 0 <= i < |r.value| ==> slot <= r.value[i].number < slot + |confs|
    decreases |confs|
  {
    if confs == [] then Ok([])
    else
      match confs[0]
      case Err(e) => Err(e)
      case Ok(conf) =>
        match ParseSlots(confs[1..], slot + 1)
        case Err(e) => Err(e)
        case Ok(rest) => Ok((if conf != map[] then [Slot(slot, conf)] else []) + rest)
  }

  /** Every kept slot holds the non-empty configuration its lines set. */
  lemma {:induction false} ParseSlotsSound(confs: seq<Result<Conf, ParseError>>, slot: nat, i: nat)
    requires ParseSlots(confs, slot).Ok? && i < |ParseSlots(confs, slot).value|
    ensures var s := ParseSlots(confs, slot).value[i];
      confs[s.number - slot] == Ok(s.conf) && s.conf != map[]
    decreases |confs|
  {
    var rest := ParseSlots(confs[1..], slot + 1).value;
    var conf := confs[0].value;
    if conf != map[] && i == 0 {
    } else {
      var k := if conf != map[] then i - 1 else i;
      assert ParseSlots(confs, slot).value[i] == rest[k];
      ParseSlotsSound(confs[1..], slot + 1, k);
      assert confs[1..][rest[k].number - (slot + 1)] == confs[rest[k].number - slot];
    }
  }

  /** The kept slots come in increasing slot order. */
  lemma {:induction false} ParseSlotsOrdered(confs: seq<Result<Conf, ParseError>>, slot: nat, i: nat, j: nat)
    requires ParseSlots(confs, slot).Ok? && i < j < |ParseSlots(confs, slot).value|
    ensures ParseSlots(confs, slot).value[i].number < ParseSlots(confs, slot).value[j].number
    decreases |confs|
  {
    var rest := ParseSlots(confs[1..], slot + 1).value;
    var conf := confs[0].value;
    if conf != map[] {
      assert ParseSlots(confs, slot).value[j] == rest[j - 1];
      if i > 0 {
        assert ParseSlots(confs, slot).value[i] == rest[i - 1];
        ParseSlotsOrdered(confs[1..], slot + 1, i - 1, j - 1);
      }
    } else {
      ParseSlotsOrdered(confs[1..], slot + 1, i, j);
    }
  }

  /** Every slot that sets at least one key is kept. */
  lemma {:induction false} ParseSlotsComplete(confs: seq<Result<Conf, ParseError>>, slot: nat, i: nat)
    requires ParseSlots(confs, slot).Ok?
    requires i < |confs| && confs[i].value != map[]
    ensures Slot(slot + i, confs[i].value) in ParseSlots(confs, slot).value
    decreases |confs|
  {
    var rest := ParseSlots(confs[1..], slot + 1).value;
    if i > 0 {
      assert confs[1..][i - 1] == confs[i];
      ParseSlotsComplete(confs[1..], slot + 1, i - 1);
      assert Slot(slot + i, confs[i].value) in rest;
    }
  }

  /** The rules named after their slots. */
  function Registry(slots: seq<Slot>): (r: seq<Rule>)
    ensures |r| == |slots|
    ensures forall i :: 0 <= i < |slots| ==> r[i] == Rule(SlotName(slots[i].number), slots[i].conf)
  {
    if slots == [] then [] else [Rule(SlotName(slots[0].number), slots[0].conf)] + Registry(slots[1..])
  }

  /** `parse_options`: the registry, in slot order, of the slots that set
      at least one whitelisted key. */
  function ParseOptions(options: seq<seq<string>>): (r: Result<seq<Rule>, ParseError>)
    requires |options| == SlotCount
    ensures r.Ok? ==> |r.value| <= SlotCount
  {
    match ParseSlots(ParseRules(options), 1)
    case Err(e) => Err(e)
    case Ok(slots) => Ok(Registry(slots))
  }

  /** The options parse exactly when every slot parses. */
  lemma ParseOptionsOk(options: seq<seq<string>>)
    requires |options| == SlotCount
    ensures ParseOptions(options).Ok? <==> forall k :: 0 <= k < |options| ==> ParseRule(options[k]).Ok?
  {
    forall k | 0 <= k < |options|
      ensures ParseRules(options)[k] == ParseRule(options[k])
    {
      ParseRulesAt(options, k);
    }
  }

  /** Rule `i` is named after its slot, `pytest_mark<k>`, and holds what
      the lines of slot `k` set: at least one key, whitelisted keys only. */
  lemma ParseOptionsSlot(options: seq<seq<string>>, i: nat)
    requires |options| == SlotCount
    requires ParseOptions(options).Ok? && i < |ParseOptions(options).value|
    ensures var rule := ParseOptions(options).value[i];
      && 1 <= SlotNumber(rule.name) <= SlotCount
      && rule.name == SlotName(SlotNumber(rule.name))
      && ParseRule(options[SlotNumber(rule.name) - 1]) == Ok(rule.conf)
      && rule.conf != map[] && rule.conf.Keys <= Whitelist
  {
    var confs := ParseRules(options);
    var slot := ParseSlots(confs, 1).value[i];
    ParseSlotsSound(confs, 1, i);
    ParseRulesAt(options, slot.number - 1);
    SlotNumberOfSlotName(slot.number);
  }

  /** The rules come in increasing slot order, so no two share a name. */
  lemma ParseOptionsOrdered(options: seq<seq<string>>, i: nat, j: nat)
    requires |options| == SlotCount
    requires ParseOptions(options).Ok? && i < j < |ParseOptions(options).value|
    ensures var reg := ParseOptions(options).value;
      SlotNumber(reg[i].name) < SlotNumber(reg[j].name) && reg[i].name != reg[j].name
  {
    var slots := ParseSlots(ParseRules(options), 1).value;
    ParseSlotsOrdered(ParseRules(options), 1, i, j);
    SlotNumberOfSlotName(slots[i].number);
    SlotNumberOfSlotName(slots[j].number);
  }

  /** Every slot `k` whose lines set a key becomes rule `pytest_mark<k>`. */
  lemma ParseOptionsComplete(options: seq<seq<string>>, k: nat)
    requires |options| == SlotCount
    requires ParseOptions(options).Ok?
    requires 1 <= k <= SlotCount && ParseRule(options[k - 1]).Ok? && ParseRule(options[k - 1]).value != map[]
    ensures Rule(SlotName(k), ParseRule(options[k - 1]).value) in ParseOptions(options).value
  {
    var confs := ParseRules(options);
    ParseRulesAt(options, k - 1);
    var slots := ParseSlots(confs, 1).value;
    ParseSlotsComplete(confs, 1, k - 1);
    var i :| 0 <= i < |slots| && slots[i] == Slot(k, confs[k - 1].value);
    assert Registry(slots)[i] == Rule(SlotName(k), ParseRule(options[k - 1]).value);
  }

  /** No parsed rule can allow duplicates: the key is not whitelisted. */
  lemma ParsedRulesAreStrict(options: seq<seq<string>>)
    requires |options| == SlotCount
    requires ParseOptions(options).Ok?
    ensures forall rule :: rule in ParseOptions(options).value ==> !AllowsDuplicate(rule.conf)
  {
    var reg := ParseOptions(options).value;
    forall rule | rule in reg
      ensures rule.conf.Keys <= Whitelist
    {
      var i :| 0 <= i < |reg| && reg[i] == rule;
      ParseOptionsSlot(options, i);
    }
    assert "allow_duplicate" !in Whitelist;
  }
}

=== FILE: rules.dfy ===
/** The rule families of flake8_pytest_mark/rules.py. Each takes one node,
    a rule name such as `pytest_mark7` and its configuration, and yields at
    most one violation. These functions read `rule_conf['name']` without a
    guard, so a configuration without `name` is outside their domain. */
module Rules {
  import opened Wrappers
  import opened Seqs
  import opened Strings
  import opened Ast
  import opened Decorators

  /** A rule configuration: string keys to string values. */
  type Conf = map<string, string>

  /** One entry of the rule registry. */
  datatype Rule = Rule(name: string, conf: Conf)

  /** The text after the M6 value list: the configured regex, or the text of
      the error the UUID parser raised. */
  datatype Detail = RegexDetail(pattern: string) | UuidDetail(error: string)

  /** The message of a violation, with its variable parts as fields. */
  datatype Message =
    | NoConfiguration(plugin: string)                                          // M401
    | NotMarked(code: string, mark: string)                                    // M5xx
    | BadValues(code: string, values: seq<string>, ruleName: string, detail: Detail) // M6xx
    | NonStringValues(code: string)                                            // M7xx
    | Duplicate(code: string, mark: string)                                    // M8xx

  /** `(line, column, message)` as handed to the linting host. */
  datatype Violation = Violation(line: int, col: int, msg: Message)

  /** The two foreign checks M6 relies on: `re.match(pattern, value)`
      succeeding, and `UUID(value)` raising (Some(text of the error)) or not. */
  datatype Validators = Validators(
    regexMatch: (string, string) -> bool,
    uuidError: string -> Option<string>)

  function Max(a: int, b: int): int
  {
    if a < b then b else a
  }

  /** The two-digit code of a rule: the digits of its name, zero-padded on
      the left to width 2 (`pytest_mark7` gives `07`). */
  function RuleCode(ruleName: string): (code: string)
    ensures AllDigits(code)
    ensures |code| == Max(2, |KeepDigits(ruleName)|)
    ensures code[|code| - |KeepDigits(ruleName)|..] == KeepDigits(ruleName)
    ensures forall i :: 0 <= i < |code| - |KeepDigits(ruleName)| ==> code[i] == '0'
    ensures |KeepDigits(ruleName)| >= 2 ==> code == KeepDigits(ruleName)
  {
    ZFill(KeepDigits(ruleName), 2)
  }

  /** Deriving a code from a code changes nothing. */
  lemma RuleCodeIdempotent(ruleName: string)
    ensures RuleCode(RuleCode(ruleName)) == RuleCode(ruleName)
  {
  }

  /** The code of a name that is a digit-free prefix followed by `digits`. */
  lemma RuleCodeOfSuffix(prefix: string, digits: string)
    requires forall i :: 0 <= i < |prefix| ==> !IsDigit(prefix[i])
    requires AllDigits(digits)
    ensures RuleCode(prefix + digits) == ZFill(digits, 2)
  {
    KeepDigitsAppend(prefix, digits);
  }

  // ---------------------------------------------------------------------
  // M5xx: presence (rules.py:8-27)
  // ---------------------------------------------------------------------

  /** `rule_m5xx`: one violation exactly when no decorator of the node is
      `@pytest.mark.<name>(...)`. */
  function RuleM5(node: Node, ruleName: string, conf: Conf): (r: seq<Violation>)
    requires "name" in conf
    ensures |r| <= 1
    ensures r != [] <==> forall d :: d in node.decorators ==> !MatchesMark(d, conf["name"])
    ensures forall v :: v in r ==>
      v == Violation(node.lineno, 0, NotMarked(RuleCode(ruleName), conf["name"]))
  {
    if ReduceByMark(node.decorators, conf["name"]) == [] then
      [Violation(node.lineno, 0, NotMarked(RuleCode(ruleName), conf["name"]))]
    else
      assert ReduceByMark(node.decorators, conf["name"])[0] in ReduceByMark(node.decorators, conf["name"]);
      []
  }

  // ---------------------------------------------------------------------
  // M6xx: value format (rules.py:30-79)
  // ---------------------------------------------------------------------

  /** A mark value fails the rule's format check: a prefix-anchored regex
      when `value_regex` is configured, else a UUID parse when `value_match`
      is `uuid`. Any other configuration lets every value pass. */
  predicate Fails(conf: Conf, val: Validators, value: string)
  {
    if "value_regex" in conf then !val.regexMatch(conf["value_regex"], value)
    else "value_match" in conf && conf["value_match"] == "uuid" && val.uuidError(value).Some?
  }

  /** The failing values of one decorator, in argument order. */
  function FailingValues(conf: Conf, val: Validators, values: seq<string>): (r: seq<string>)
    ensures forall v :: v in r <==> v in values && Fails(conf, val, v)
    ensures IsSubsequence(r, values)
  {
    if values == [] then []
    else
      var rest := FailingValues(conf, val, values[1..]);
      assert values == [values[0]] + values[1..];
      if Fails(conf, val, values[0]) then
        assert ([values[0]] + rest)[1..] == rest;
        [values[0]] + rest
      else rest
  }

  lemma {:induction false} FailingValuesAppend(conf: Conf, val: Validators, a: seq<string>, b: seq<string>)
    ensures FailingValues(conf, val, a + b) == FailingValues(conf, val, a) + FailingValues(conf, val, b)
  {
    if a == [] {
      assert a + b == b;
    } else {
      assert (a + b)[0] == a[0];
      assert (a + b)[1..] == a[1..] + b;
      FailingValuesAppend(conf, val, a[1..], b);
    }
  }

  /** The failing values of a sequence of decorators' value lists, in
      decorator-then-argument order. */
  function FailingAll(conf: Conf, val: Validators, batches: seq<seq<string>>): (r: seq<string>)
    ensures forall v :: v in r ==> Fails(conf, val, v)
  {
    if batches == [] then []
    else FailingValues(conf, val, batches[0]) + FailingAll(conf, val, batches[1..])
  }

  /** A value is reported exactly when it fails and occurs in some batch. */
  lemma {:induction false} FailingAllMembers(conf: Conf, val: Validators, batches: seq<seq<string>>, v: string)
    ensures v in FailingAll(conf, val, batches) <==>
      exists k :: 0 <= k < |batches| && v in batches[k] && Fails(conf, val, v)
  {
    if batches != [] {
      FailingAllMembers(conf, val, batches[1..], v);
      if exists k :: 0 <= k < |batches| && v in batches[k] && Fails(conf, val, v) {
        var k :| 0 <= k < |batches| && v in batches[k] && Fails(conf, val, v);
        if k > 0 {
          assert v in batches[1..][k - 1];
        }
      }
      if v in FailingAll(conf, val, batches[1..]) {
        var k :| 0 <= k < |batches[1..]| && v in batches[1..][k] && Fails(conf, val, v);
        assert v in batches[k + 1];
      }
    }
  }

  lemma {:induction false} FailingAllAppend(conf: Conf, val: Validators, a: seq<seq<string>>, b: seq<seq<string>>)
    ensures FailingAll(conf, val, a + b) == FailingAll(conf, val, a) + FailingAll(conf, val, b)
  {
    if a == [] {
      assert a + b == b;
    } else {
      assert (a + b)[0] == a[0];
      assert (a + b)[1..] == a[1..] + b;
      FailingAllAppend(conf, val, a[1..], b);
    }
  }

  /** One more batch adds its failing values at the end. */
  lemma FailingAllStep(conf: Conf, val: Validators, batches: seq<seq<string>>, i: nat)
    requires i < |batches|
    ensures FailingAll(conf, val, batches[..i + 1]) ==
      FailingAll(conf, val, batches[..i]) + FailingValues(conf, val, batches[i])
  {
    assert batches[..i + 1] == batches[..i] + [batches[i]];
    FailingAllAppend(conf, val, batches[..i], [batches[i]]);
  }

  /** The detail text recorded when `value` fails. */
  function DetailOf(conf: Conf, val: Validators, value: string): Detail
    requires Fails(conf, val, value)
  {
    if "value_regex" in conf then RegexDetail(conf["value_regex"])
    else UuidDetail(val.uuidError(value).value)
  }

  /** The value lists `_get_decorator_args` reads from each decorator. */
  function ArgBatches(decorators: seq<Expr>): seq<seq<string>>
  {
    seq(|decorators|, k requires 0 <= k < |decorators| => GetDecoratorArgs(decorators[k]))
  }

  /** The first decorator's values lead the batches. */
  lemma ArgBatchesCons(d: Expr, ds: seq<Expr>)
    ensures ArgBatches([d] + ds) == [GetDecoratorArgs(d)] + ArgBatches(ds)
  {
    assert forall k :: 1 <= k < |[d] + ds| ==> ([d] + ds)[k] == ds[k - 1];
  }

  /** The M6 report over the value lists of the examined decorators: one
      violation listing every failing value, with the detail of the last. */
  function ReportM6(lineno: int, ruleName: string, conf: Conf, val: Validators, batches: seq<seq<string>>)
    : seq<Violation>
  {
    var bad := FailingAll(conf, val, batches);
    if bad == [] then []
    else
      [Violation(lineno, 0, BadValues(RuleCode(ruleName), bad, ruleName, DetailOf(conf, val, bad[|bad| - 1])))]
  }

  /** `rule_m6xx`: at most one violation, listing the failing values of
      every `@pytest.mark.<name>` decorator in decorator-then-argument order. */
  function RuleM6(node: Node, ruleName: string, conf: Conf, val: Validators): (r: seq<Violation>)
    requires "name" in conf
    ensures |r| <= 1
    ensures r != [] ==>
      && r[0].line == node.lineno && r[0].col == 0 && r[0].msg.BadValues?
      && r[0].msg.code == RuleCode(ruleName) && r[0].msg.ruleName == ruleName
      && r[0].msg.values != []
      && (forall v :: v in r[0].msg.values ==> Fails(conf, val, v))
      && Fails(conf, val, r[0].msg.values[|r[0].msg.values| - 1])
      && r[0].msg.detail == DetailOf(conf, val, r[0].msg.values[|r[0].msg.values| - 1])
    ensures "value_regex" !in conf && ("value_match" !in conf || conf["value_match"] != "uuid") ==> r == []
  {
    ReportM6(node.lineno, ruleName, conf, val, ArgBatches(ReduceByMark(node.decorators, conf["name"])))
  }

  /** A value fails in some decorator's list exactly when it fails in the
      list of some decorator read by `ArgBatches`. */
  lemma ArgBatchesMembers(conf: Conf, val: Validators, marks: seq<Expr>, v: string)
    ensures (exists k :: 0 <= k < |ArgBatches(marks)| && v in ArgBatches(marks)[k] && Fails(conf, val, v))
      <==> (exists d :: d in marks && v in GetDecoratorArgs(d) && Fails(conf, val, v))
  {
    var batches := ArgBatches(marks);
    if exists d :: d in marks && v in GetDecoratorArgs(d) && Fails(conf, val, v) {
      var d :| d in marks && v in GetDecoratorArgs(d) && Fails(conf, val, v);
      var k :| 0 <= k < |marks| && marks[k] == d;
      assert batches[k] == GetDecoratorArgs(d);
    }
    if exists k :: 0 <= k < |batches| && v in batches[k] && Fails(conf, val, v) {
      var k :| 0 <= k < |batches| && v in batches[k] && Fails(conf, val, v);
      assert batches[k] == GetDecoratorArgs(marks[k]) && marks[k] in marks;
    }
  }

  /** M6 reports exactly the failing values of the matching decorators. */
  lemma RuleM6Values(node: Node, ruleName: string, conf: Conf, val: Validators, v: string)
    requires "name" in conf
    ensures var r := RuleM6(node, ruleName, conf, val);
      (r != [] && v in r[0].msg.values) <==>
        exists d :: d in node.decorators && MatchesMark(d, conf["name"])
          && v in GetDecoratorArgs(d) && Fails(conf, val, v)
  {
    var marks := ReduceByMark(node.decorators, conf["name"]);
    var batches := ArgBatches(marks);
    FailingAllMembers(conf, val, batches, v);
    ArgBatchesMembers(conf, val, marks, v);
  }

  /** M6 fires exactly when some value of a matching decorator fails. */
  lemma RuleM6Fires(node: Node, ruleName: string, conf: Conf, val: Validators)
    requires "name" in conf
    ensures RuleM6(node, ruleName, conf, val) != [] <==>
      exists d, v :: d in node.decorators && MatchesMark(d, conf["name"])
        && v in GetDecoratorArgs(d) && Fails(conf, val, v)
  {
    var r := RuleM6(node, ruleName, conf, val);
    if r != [] {
      var v := r[0].msg.values[0];
      RuleM6Values(node, ruleName, conf, val, v);
    }
    if exists d, v :: d in node.decorators && MatchesMark(d, conf["name"])
        && v in GetDecoratorArgs(d) && Fails(conf, val, v) {
      var d, v :| d in node.decorators && MatchesMark(d, conf["name"])
        && v in GetDecoratorArgs(d) && Fails(conf, val, v);
      RuleM6Values(node, ruleName, conf, val, v);
    }
  }

  /** The inner loop of rules.py:58-73 over one decorator's values: appends
      each failing value and records its detail. */
  method ScanValues(conf: Conf, val: Validators, values: seq<string>,
                    nonMatching0: seq<string>, detail0: Option<Detail>)
    returns (nonMatching: seq<string>, detail: Option<Detail>)
    requires forall v :: v in nonMatching0 ==> Fails(conf, val, v)
    requires nonMatching0 != [] ==> detail0 == Some(DetailOf(conf, val, nonMatching0[|nonMatching0| - 1]))
    ensures nonMatching == nonMatching0 + FailingValues(conf, val, values)
    ensures nonMatching != [] ==> detail == Some(DetailOf(conf, val, nonMatching[|nonMatching| - 1]))
  {
    nonMatching, detail := nonMatching0, detail0;
    var j := 0;
    while j < |values|
      invariant 0 <= j <= |values|
      invariant nonMatching == nonMatching0 + FailingValues(conf, val, values[..j])
      invariant forall v :: v in nonMatching ==> Fails(conf, val, v)
      invariant nonMatching != [] ==> detail == Some(DetailOf(conf, val, nonMatching[|nonMatching| - 1]))
    {
      var value := values[j];
      FailingValuesAppend(conf, val, values[..j], [value]);
      assert values[..j + 1] == values[..j] + [value];
      if "value_regex" in conf {
        if !val.regexMatch(conf["value_regex"], value) {
          nonMatching := nonMatching + [value];
          detail := Some(RegexDetail(conf["value_regex"]));
        }
      }
      if "value_match" in conf && "value_regex" !in conf {
        if conf["value_match"] == "uuid" {
          match val.uuidError(value)
          case Some(e) =>
            nonMatching := nonMatching + [value];
            detail := Some(UuidDetail(e));
          case None =>
        }
      }
      j := j + 1;
    }
    assert values[..j] == values;
  }

  /** Without `value_regex` or `value_match` no value can fail. */
  lemma NothingFailsUnconfigured(conf: Conf, val: Validators, values: seq<string>)
    requires "value_regex" !in conf && "value_match" !in conf
    ensures FailingValues(conf, val, values) == []
  {
    var bad := FailingValues(conf, val, values);
    assert forall v :: v !in bad;
  }

  /** One pass of the decorator loop of rules.py:48-73: raise the
      `attempt_value_match` flag when a check is configured, then scan the
      values once it is raised. */
  method ScanDecorator(conf: Conf, val: Validators, values: seq<string>,
                       nonMatching0: seq<string>, detail0: Option<Detail>, attempt0: bool, configured0: bool)
    returns (nonMatching: seq<string>, detail: Option<Detail>, attempt: bool, configured: bool)
    requires attempt0 ==> "value_regex" in conf || "value_match" in conf
    requires forall v :: v in nonMatching0 ==> Fails(conf, val, v)
    requires nonMatching0 != [] ==> configured0
    requires nonMatching0 != [] ==> detail0 == Some(DetailOf(conf, val, nonMatching0[|nonMatching0| - 1]))
    ensures nonMatching == nonMatching0 + FailingValues(conf, val, values)
    ensures attempt == ("value_regex" in conf || "value_match" in conf)
    ensures nonMatching != [] ==> configured
    ensures nonMatching != [] ==> detail == Some(DetailOf(conf, val, nonMatching[|nonMatching| - 1]))
  {
    nonMatching, detail, attempt, configured := nonMatching0, detail0, attempt0, configured0;
    if "value_regex" in conf || "value_match" in conf {
      attempt := true;
    }
    if attempt {
      configured := true;
      nonMatching, detail := ScanValues(conf, val, values, nonMatching, detail);
    } else {
      NothingFailsUnconfigured(conf, val, values);
    }
  }

  /** The loop of rules.py:44-79 as written, with its `configured`,
      `attempt_value_match` and `detailed_error` variables, computes
      `RuleM6`: in particular the detail is the last failing value's. */
  method RuleM6Loop(node: Node, ruleName: string, conf: Conf, val: Validators) returns (r: seq<Violation>)
    requires "name" in conf
    ensures r == RuleM6(node, ruleName, conf, val)
  {
    var configured := false;
    var nonMatching: seq<string> := [];
    var detail: Option<Detail> := None;
    var attempt := false;
    var marks := ReduceByMark(node.decorators, conf["name"]);
    ghost var batches := ArgBatches(marks);
    var i := 0;
    while i < |marks|
      invariant 0 <= i <= |marks|
      invariant nonMatching == FailingAll(conf, val, batches[..i])
      invariant attempt ==> "value_regex" in conf || "value_match" in conf
      invariant nonMatching != [] ==> configured
      invariant nonMatching != [] ==> detail == Some(DetailOf(conf, val, nonMatching[|nonMatching| - 1]))
    {
      var values := GetDecoratorArgs(marks[i]);
      assert values == batches[i];
      FailingAllStep(conf, val, batches, i);
      nonMatching, detail, attempt, configured :=
        ScanDecorator(conf, val, values, nonMatching, detail, attempt, configured);
      i := i + 1;
    }
    assert batches[..i] == batches;
    if configured && |nonMatching| > 0 {
      r := [Violation(node.lineno, 0, BadValues(RuleCode(ruleName), nonMatching, ruleName, detail.value))];
    } else {
      r := [];
    }
  }

  /** With `value_regex` configured, `value_match` is never consulted. */
  lemma RegexTakesPrecedence(node: Node, ruleName: string, conf: Conf, val: Validators)
    requires "name" in conf && "value_regex" in conf
    ensures RuleM6(node, ruleName, conf, val) == RuleM6(node, ruleName, conf - {"value_match"}, val)
  {
    var conf' := conf - {"value_match"};
    assert forall v :: Fails(conf, val, v) == Fails(conf', val, v);
    var batches := ArgBatches(ReduceByMark(node.decorators, conf["name"]));
    FailingAllSameCheck(conf, conf', val, batches);
  }

  lemma {:induction false} FailingAllSameCheck(conf: Conf, conf': Conf, val: Validators, batches: seq<seq<string>>)
    requires forall v :: Fails(conf, val, v) == Fails(conf', val, v)
    ensures FailingAll(conf, val, batches) == FailingAll(conf', val, batches)
  {
    if batches != [] {
      FailingValuesSameCheck(conf, conf', val, batches[0]);
      FailingAllSameCheck(conf, conf', val, batches[1..]);
    }
  }

  lemma {:induction false} FailingValuesSameCheck(conf: Conf, conf': Conf, val: Validators, values: seq<string>)
    requires forall v :: Fails(conf, val, v) == Fails(conf', val, v)
    ensures FailingValues(conf, val, values) == FailingValues(conf', val, values)
  {
    if values != [] {
      FailingValuesSameCheck(conf, conf', val, values[1..]);
    }
  }

  // ---------------------------------------------------------------------
  // M7xx: value type (rules.py:82-103)
  // ---------------------------------------------------------------------

  /** Some argument of the call is not a string literal. */
  predicate HasNonStringArg(d: Expr)
  {
    match Args(d)
    case None => false
    case Some(args) => exists k :: 0 <= k < |args| && S(args[k]).None?
  }

  /** `rule_m7xx`: one violation exactly when some `@pytest.mark.<name>`
      decorator has a non-string argument. */
  function RuleM7(node: Node, ruleName: string, conf: Conf): (r: seq<Violation>)
    requires "name" in conf
    ensures |r| <= 1
    ensures r != [] <==> exists d :: d in node.decorators && MatchesMark(d, conf["name"]) && HasNonStringArg(d)
    ensures forall x :: x in r ==> x == Violation(node.lineno, 0, NonStringValues(RuleCode(ruleName)))
  {
    if exists d :: d in ReduceByMark(node.decorators, conf["name"]) && HasNonStringArg(d) then
      [Violation(node.lineno, 0, NonStringValues(RuleCode(ruleName)))]
    else []
  }

  /** M7 fires exactly when some matching decorator had values cut short by
      `_get_decorator_args`, i.e. when M6 silently skipped values. */
  lemma RuleM7FlagsTruncation(node: Node, ruleName: string, conf: Conf)
    requires "name" in conf
    ensures RuleM7(node, ruleName, conf) != [] <==>
      exists d :: d in node.decorators && MatchesMark(d, conf["name"])
        && |GetDecoratorArgs(d)| < |d.args|
  {
    forall d | MatchesMark(d, conf["name"])
      ensures HasNonStringArg(d) <==> |GetDecoratorArgs(d)| < |d.args|
    {
      if HasNonStringArg(d) {
        var k :| 0 <= k < |d.args| && S(d.args[k]).None?;
        assert !d.args[k].Str?;
      }
      if |GetDecoratorArgs(d)| < |d.args| {
        assert S(d.args[|GetDecoratorArgs(d)|]).None?;
      }
    }
  }

  // ---------------------------------------------------------------------
  // M8xx: duplicate use (rules.py:106-126)
  // ---------------------------------------------------------------------

  /** `allow_duplicate` is present and lower-cases to `true`. */
  predicate AllowsDuplicate(conf: Conf)
  {
    "allow_duplicate" in conf && Lower(conf["allow_duplicate"]) == "true"
  }

  /** `rule_m8xx`: one violation exactly when duplicates are not allowed and
      two decorators of the node are `@pytest.mark.<name>(...)`. */
  function RuleM8(node: Node, ruleName: string, conf: Conf): (r: seq<Violation>)
    requires "name" in conf
    ensures |r| <= 1
    ensures r != [] <==> !AllowsDuplicate(conf) && MatchesTwice(node.decorators, conf["name"])
    ensures forall x :: x in r ==> x == Violation(node.lineno, 0, Duplicate(RuleCode(ruleName), conf["name"]))
  {
    ReduceByMarkMoreThanOne(node.decorators, conf["name"]);
    if !AllowsDuplicate(conf) && |ReduceByMark(node.decorators, conf["name"])| > 1 then
      [Violation(node.lineno, 0, Duplicate(RuleCode(ruleName), conf["name"]))]
    else []
  }

  /** Duplicates are allowed only by one of the sixteen case spellings of
      `true`; an absent key is strict. */
  lemma AllowsDuplicateSpelling(conf: Conf)
    ensures AllowsDuplicate(conf) <==>
      "allow_duplicate" in conf && |conf["allow_duplicate"]| == 4
      && conf["allow_duplicate"][0] in "tT" && conf["allow_duplicate"][1] in "rR"
      && conf["allow_duplicate"][2] in "uU" && conf["allow_duplicate"][3] in "eE"
  {
    if "allow_duplicate" in conf {
      LowerIsTrue(conf["allow_duplicate"]);
    }
  }
}

=== FILE: scenarios.dfy ===
/** Worked examples of the model on small inputs: a rule coded `07` (as
    slot 7 is) whose mark `uuid` must carry UUID values. */
module Scenarios {
  import opened Wrappers
  import opened Strings
  import opened Ast
  import opened Decorators
  import opened Rules
  import opened MarkChecker
  import opened Options

  /** `name = uuid` and `value_match = uuid` */
  const UuidRule: Conf := map["name" := "uuid", "value_match" := "uuid"]

  /** `def test_login(): ...` on line 3, under the given decorators. */
  function Login(decorators: seq<Expr>): Node
  {
    Node(FunctionDef, "test_login", 3, decorators)
  }

  /** `@pytest.mark.<mark>(<args>)` */
  function MarkCall(mark: string, args: seq<Expr>): Expr
  {
    Call(Attribute(Attribute(Name("pytest"), "mark"), mark), args)
  }

  /** Slot 7 reports under code `07`. */
  lemma SlotSeven()
    ensures RuleCode(SlotName(7)) == "07"
  {
    SlotRuleCode(7);
    assert NatToString(7) == "7";
  }

  /** `@pytest.mark.uuid` without a call and `@mark.uuid(...)` without the
      `pytest.` root are not marks; a subscripted middle link is accepted. */
  lemma MarkShapes()
    ensures MatchesMark(MarkCall("uuid", []), "uuid")
    ensures !MatchesMark(Attribute(Attribute(Name("pytest"), "mark"), "uuid"), "uuid")
    ensures !MatchesMark(Call(Attribute(Name("mark"), "uuid"), []), "uuid")
    ensures MatchesMark(Call(Attribute(Subscript(Name("pytest"), Other), "uuid"), []), "uuid")
  {
  }

  /** An undecorated test function is reported by M5. */
  lemma UnmarkedTestFunction(ruleName: string)
    requires RuleCode(ruleName) == "07"
    ensures InlineM5(Login([]), ruleName, UuidRule)
      == [Violation(3, 0, NotMarked("07", "uuid"))]
  {
    var node := Login([]);
    InlineM5Fires(node, ruleName, UuidRule);
    assert StartsWith(node.name, "test_");
  }

  /** A value the UUID parser accepts gives no M6. */
  lemma ValidUuid(val: Validators, value: string)
    requires val.uuidError(value) == None
    ensures InlineM6(Login([MarkCall("uuid", [Str(value)])]), SlotName(7), UuidRule, val) == []
  {
    var d := MarkCall("uuid", [Str(value)]);
    assert StringValues(d.args).Some?;
    var v := StringValues(d.args).value;
    assert d.args[0] == Str(v[0]);
    assert v == [value];
    assert InlineBatches([d], "uuid") == [[value]];
    assert FailingValues(UuidRule, val, [value]) == [];
    assert FailingAll(UuidRule, val, [[value]]) == [];
  }

  /** A value the UUID parser rejects is listed by M6 with the parser's
      error. */
  lemma InvalidUuid(ruleName: string, val: Validators)
    requires RuleCode(ruleName) == "07"
    requires val.uuidError("abc") == Some("badly formed hexadecimal UUID string")
    ensures InlineM6(Login([MarkCall("uuid", [Str("abc")])]), ruleName, UuidRule, val)
      == [Violation(3, 0, BadValues("07", ["abc"], ruleName, UuidDetail("badly formed hexadecimal UUID string")))]
  {
    var d := MarkCall("uuid", [Str("abc")]);
    assert StringValues(d.args).Some?;
    var v := StringValues(d.args).value;
    assert d.args[0] == Str(v[0]);
    assert v == ["abc"];
    assert InlineBatches([d], "uuid") == [["abc"]];
    assert Fails(UuidRule, val, "abc");
    assert FailingValues(UuidRule, val, ["abc"]) == ["abc"];
    assert FailingAll(UuidRule, val, [["abc"]]) == ["abc"];
  }

  /** With a variable name (which has no `.s`) after the bad value, the
      checker reports M7 and no M6, while rules.py's M6 still lists the value
      it read before the name. */
  lemma MixedArguments(ruleName: string, val: Validators)
    requires RuleCode(ruleName) == "07"
    requires val.uuidError("abc").Some?
    ensures InlineM6(Login([MarkCall("uuid", [Str("abc"), Name("x")])]), ruleName, UuidRule, val) == []
    ensures InlineM7(Login([MarkCall("uuid", [Str("abc"), Name("x")])]), ruleName, UuidRule)
      == [Violation(3, 0, NonStringValues("07"))]
    ensures RuleM6(Login([MarkCall("uuid", [Str("abc"), Name("x")])]), ruleName, UuidRule, val) != []
  {
    var d := MarkCall("uuid", [Str("abc"), Name("x")]);
    var node := Login([d]);
    assert MatchesMark(d, "uuid");
    assert HasNonStringArg(d) by {
      assert S(d.args[1]).None?;
    }
    InlineM7Fires(node, ruleName, UuidRule);
    assert StringValues(d.args).None?;
    assert InlineBatches([d], "uuid") == [];
    assert GetDecoratorArgs(d) == ["abc"];
    assert ReduceByMark([d], "uuid") == [d];
    assert ArgBatches([d]) == [["abc"]];
    assert Fails(UuidRule, val, "abc");
    assert FailingValues(UuidRule, val, ["abc"]) == ["abc"];
    assert FailingAll(UuidRule, val, [["abc"]]) == ["abc"];
  }

  /** Two uses of the mark are a duplicate unless `allow_duplicate` is a
      spelling of `true`. */
  lemma Duplicates()
    ensures RuleM8(Login([MarkCall("uuid", []), MarkCall("uuid", [])]), SlotName(7), map["name" := "uuid"]) != []
    ensures RuleM8(Login([MarkCall("uuid", []), MarkCall("uuid", [])]), SlotName(7),
                   map["name" := "uuid", "allow_duplicate" := "True"]) == []
  {
    var ds := [MarkCall("uuid", []), MarkCall("uuid", [])];
    assert MatchesTwice(ds, "uuid") by {
      assert MatchesMark(ds[0], "uuid") && MatchesMark(ds[1], "uuid");
    }
    AllowsDuplicateSpelling(map["name" := "uuid"]);
    AllowsDuplicateSpelling(map["name" := "uuid", "allow_duplicate" := "True"]);
  }

  /** A rule without `name` makes `run` raise as soon as the walk meets a
      function, even one that is not a test. */
  lemma NamelessRule(val: Validators)
    ensures Run([Node(FunctionDef, "helper", 1, [])], [Rule(SlotName(1), map["value_match" := "uuid"])], val)
      == Err(MissingName)
  {
    NamelessRuleFails([Node(FunctionDef, "helper", 1, [])], [Rule(SlotName(1), map["value_match" := "uuid"])], val);
  }

  /** One function definition and one rule without `name` are enough. */
  lemma NamelessRuleFails(nodes: seq<Node>, registry: seq<Rule>, val: Validators)
    requires |nodes| == 1 && nodes[0].kind == FunctionDef
    requires |registry| == 1 && "name" !in registry[0].conf
    ensures Run(nodes, registry, val) == Err(MissingName)
  {
    assert nodes[0] in nodes && registry[0] in registry;
  }
}

=== FILE: seqs.dfy ===
/** Sequence relations shared by the filters of the model. */
module Seqs {

  /** `sub` can be obtained from `s` by deleting elements, keeping order. */
  predicate IsSubsequence<T(==)>(sub: seq<T>, s: seq<T>)
  {
    if sub == [] then true
    else if s == [] then false
    else if sub[0] == s[0] then IsSubsequence(sub[1..], s[1..])
    else IsSubsequence(sub, s[1..])
  }
}

=== FILE: strings.dfy ===
/** The Python string operations the plugin relies on, over `string`
    (a sequence of characters). */
module Strings {

  /** `str.isdigit` on the ASCII digits. */
  predicate IsDigit(c: char)
  {
    '0' <= c <= '9'
  }

  predicate AllDigits(s: string)
  {
    forall i :: 0 <= i < |s| ==> IsDigit(s[i])
  }

  /** `str.isspace`: exactly the characters `str.strip()` removes. */
  predicate IsSpace(c: char)
  {
    var n := c as int;
    (0x09 <= n <= 0x0D) || (0x1C <= n <= 0x20) || n == 0x85 || n == 0xA0
    || n == 0x1680 || (0x2000 <= n <= 0x200A) || n == 0x2028 || n == 0x2029
    || n == 0x202F || n == 0x205F || n == 0x3000
  }

  predicate StartsWith(s: string, prefix: string)
  {
    |prefix| <= |s| && s[..|prefix|] == prefix
  }

  // ---------------------------------------------------------------------
  // Digits and zero padding (the rule code)
  // ---------------------------------------------------------------------

  /** `''.join([c for c in s if c.isdigit()])` */
  function KeepDigits(s: string): (r: string)
    ensures AllDigits(r)
    ensures |r| <= |s|
    ensures AllDigits(s) ==> r == s
    ensures (forall i :: 0 <= i < |s| ==> !IsDigit(s[i])) ==> r == ""
  {
    if s == [] then ""
    else (if IsDigit(s[0]) then [s[0]] else "") + KeepDigits(s[1..])
  }

  /** Keeping digits commutes with concatenation. */
  lemma {:induction false} KeepDigitsAppend(a: string, b: string)
    ensures KeepDigits(a + b) == KeepDigits(a) + KeepDigits(b)
  {
    if a == [] {
      assert a + b == b;
    } else {
      assert (a + b)[0] == a[0];
      assert (a + b)[1..] == a[1..] + b;
      assert KeepDigits(a + b) == (if IsDigit(a[0]) then [a[0]] else "") + KeepDigits(a[1..] + b);
      KeepDigitsAppend(a[1..], b);
    }
  }

  /** `s.zfill(width)` for a string without a leading sign, which is the
      only kind the plugin ever pads: zeros on the left up to `width`. */
  function ZFill(s: string, width: nat): (r: string)
    ensures |r| == if |s| < width then width else |s|
    ensures r[|r| - |s|..] == s
    ensures forall i :: 0 <= i < |r| - |s| ==> r[i] == '0'
  {
    if |s| >= width then s else seq(width - |s|, _ => '0') + s
  }

  // ---------------------------------------------------------------------
  // Decimal rendering of a natural number (`str(n)`)
  // ---------------------------------------------------------------------

  function DigitChar(d: nat): (c: char)
    requires d < 10
    ensures IsDigit(c)
  {
    ('0' as int + d) as char
  }

  function DigitValue(c: char): (d: nat)
    requires IsDigit(c)
    ensures d < 10
  {
    c as int - '0' as int
  }

  /** `str(n)` for a natural number. */
  function NatToString(n: nat): (r: string)
    ensures |r| >= 1 && AllDigits(r)
    ensures (r[0] == '0') == (n == 0)
    decreases n
  {
    if n < 10 then [DigitChar(n)] else NatToString(n / 10) + [DigitChar(n % 10)]
  }

  /** `int(s)` for a non-empty string of decimal digits. */
  function DigitsToNat(s: string): nat
    requires AllDigits(s)
  {
    if s == [] then 0 else DigitsToNat(s[..|s| - 1]) * 10 + DigitValue(s[|s| - 1])
  }

  /** Reading back a rendered number gives the number. */
  lemma {:induction false} NatToStringRoundTrip(n: nat)
    ensures DigitsToNat(NatToString(n)) == n
    decreases n
  {
    var s := NatToString(n);
    if n < 10 {
      assert s[..|s| - 1] == [];
    } else {
      assert s[..|s| - 1] == NatToString(n / 10);
      NatToStringRoundTrip(n / 10);
    }
  }

  // ---------------------------------------------------------------------
  // `str.split(sep)` and its inverse `sep.join(parts)`
  // ---------------------------------------------------------------------

  function Join(parts: seq<string>, sep: char): string
    requires |parts| >= 1
  {
    if |parts| == 1 then parts[0] else parts[0] + [sep] + Join(parts[1..], sep)
  }

  /** `s.split(sep)`: the pieces between separators, at least one. */
  function Split(s: string, sep: char): (r: seq<string>)
    ensures |r| >= 1
    ensures forall i :: 0 <= i < |r| ==> sep !in r[i]
    ensures Join(r, sep) == s
    ensures |r| == 1 <==> sep !in s
  {
    if s == [] then [""]
    else
      var rest := Split(s[1..], sep);
      assert s == [s[0]] + s[1..];
      if s[0] == sep then
        var r := [""] + rest;
        assert r[1..] == rest;
        r
      else
        var r := [[s[0]] + rest[0]] + rest[1..];
        assert r[1..] == rest[1..];
        assert |rest| > 1 ==> Join(rest, sep) == rest[0] + [sep] + Join(rest[1..], sep);
        r
  }

  /** A separator-free prefix followed by a separator is split off whole. */
  lemma {:induction false} SplitAfterFirst(a: string, b: string, sep: char)
    requires sep !in a
    ensures Split(a + [sep] + b, sep) == [a] + Split(b, sep)
  {
    if a == [] {
      assert a + [sep] + b == [sep] + b;
      assert ([sep] + b)[1..] == b;
    } else {
      var s := a + [sep] + b;
      assert s[0] == a[0];
      assert s[1..] == a[1..] + [sep] + b;
      SplitAfterFirst(a[1..], b, sep);
      assert [a[0]] + a[1..] == a;
    }
  }

  /** Splitting is the inverse of joining separator-free pieces. */
  lemma {:induction false} SplitJoin(parts: seq<string>, sep: char)
    requires |parts| >= 1
    requires forall i :: 0 <= i < |parts| ==> sep !in parts[i]
    ensures Split(Join(parts, sep), sep) == parts
  {
    if |parts| == 1 {
      var r := Split(parts[0], sep);
      assert |r| == 1;
      assert Join(r, sep) == r[0];
    } else {
      SplitJoin(parts[1..], sep);
      SplitAfterFirst(parts[0], Join(parts[1..], sep), sep);
      assert [parts[0]] + parts[1..] == parts;
    }
  }

  // ---------------------------------------------------------------------
  // `str.strip()`
  // ---------------------------------------------------------------------

  /** `s.lstrip()` */
  function TrimStart(s: string): (r: string)
    ensures |r| <= |s| && r == s[|s| - |r|..]
    ensures forall i :: 0 <= i < |s| - |r| ==> IsSpace(s[i])
    ensures r == [] || !IsSpace(r[0])
  {
    if s != [] && IsSpace(s[0]) then TrimStart(s[1..]) else s
  }

  /** `s.rstrip()` */
  function TrimEnd(s: string): (r: string)
    ensures |r| <= |s| && r == s[..|r|]
    ensures forall i :: |r| <= i < |s| ==> IsSpace(s[i])
    ensures r == [] || !IsSpace(r[|r| - 1])
  {
    if s != [] && IsSpace(s[|s| - 1]) then TrimEnd(s[..|s| - 1]) else s
  }

  /** `s[i..j]` is what remains once whitespace is removed from both ends:
      everything before `i` and from `j` on is whitespace. */
  predicate TrimmedSlice(s: string, i: int, j: int)
  {
    && 0 <= i <= j <= |s|
    && (forall k :: 0 <= k < i ==> IsSpace(s[k]))
    && (forall k :: j <= k < |s| ==> IsSpace(s[k]))
  }

  /** `s.strip()`: the slice of `s` left once whitespace is removed from
      both ends. */
  function Strip(s: string): (r: string)
    ensures |r| <= |s|
    ensures r == [] || (!IsSpace(r[0]) && !IsSpace(r[|r| - 1]))
    ensures r == [] <==> forall i :: 0 <= i < |s| ==> IsSpace(s[i])
    ensures s == [] || (!IsSpace(s[0]) && !IsSpace(s[|s| - 1])) ==> r == s
    ensures exists i, j :: TrimmedSlice(s, i, j) && r == s[i..j]
  {
    TrimBothSlice(s);
    TrimEnd(TrimStart(s))
  }

  /** Trimming both ends leaves a slice of `s` with whitespace around it. */
  lemma {:induction false} TrimBothSlice(s: string)
    ensures exists i, j :: TrimmedSlice(s, i, j) && TrimEnd(TrimStart(s)) == s[i..j]
  {
    var t := TrimStart(s);
    var r := TrimEnd(t);
    var i := |s| - |t|;
    var j := i + |r|;
    assert t == s[i..];
    assert r == s[i..j];
    forall k | j <= k < |s|
      ensures IsSpace(s[k])
    {
      assert s[k] == t[k - i];
    }
    assert TrimmedSlice(s, i, j);
  }

  // ---------------------------------------------------------------------
  // `str.lower()`
  // ---------------------------------------------------------------------

  function LowerChar(c: char): char
  {
    if 'A' <= c <= 'Z' then (c as int + 32) as char else c
  }

  /** `s.lower()` on ASCII letters; no other character lowers to one of the
      letters of "true", so comparisons against it are exact. */
  function Lower(s: string): (r: string)
    ensures |r| == |s|
    ensures forall i :: 0 <= i < |s| ==> r[i] == LowerChar(s[i])
  {
    seq(|s|, i requires 0 <= i < |s| => LowerChar(s[i]))
  }

  /** `s.lower() == "true"` holds for exactly the sixteen spellings of "true"
      in any mix of cases. */
  lemma LowerIsTrue(s: string)
    ensures Lower(s) == "true" <==>
      |s| == 4 && s[0] in "tT" && s[1] in "rR" && s[2] in "uU" && s[3] in "eE"
  {
    if |s| == 4 && s[0] in "tT" && s[1] in "rR" && s[2] in "uU" && s[3] in "eE" {
      assert Lower(s) == "true";
    }
    if Lower(s) == "true" {
      assert LowerChar(s[0]) == 't' && LowerChar(s[1]) == 'r';
      assert LowerChar(s[2]) == 'u' && LowerChar(s[3]) == 'e';
    }
  }
}

=== FILE: walk.dfy ===
/** The order of what `run` of flake8_pytest_mark.py yields, written out
    without the `rule_funcs` table: the walk is the outer loop, the
    families the middle one and the registry the inner one. */
module RunOrder {
  import opened Ast
  import opened Rules
  import opened MarkChecker

  /** `run`'s output written out without the `rule_funcs` table: node
      after node in walk order, every M5 over the registry, then every M6,
      then every M7. */
  function WalkBlocks(nodes: seq<Node>, registry: seq<Rule>, val: Validators): seq<Violation>
    requires NamesConfigured(nodes, registry)
  {
    if nodes == [] then []
    else
      assert nodes[0] in nodes;
      assert forall n :: n in nodes[1..] ==> n in nodes;
      M5OverRules(nodes[0], registry) + M6OverRules(nodes[0], registry, val) + M7OverRules(nodes[0], registry)
        + WalkBlocks(nodes[1..], registry, val)
  }

  /** The sequence `run` yields, in full: node after node in walk order,
      and within a node all its M5, then all its M6, then all its M7. */
  lemma {:induction false} RunWalk(nodes: seq<Node>, registry: seq<Rule>, val: Validators)
    requires registry != [] && NamesConfigured(nodes, registry)
    ensures Run(nodes, registry, val).Ok?
    ensures Run(nodes, registry, val).value == WalkBlocks(nodes, registry, val)
  {
    if nodes != [] {
      var rest := nodes[1..];
      assert nodes[0] in nodes;
      assert forall n :: n in rest ==> n in nodes;
      NodeViolationsBlocks(nodes[0], registry, val);
      RunWalk(rest, registry, val);
    }
  }
}

=== FILE: wrappers.dfy ===
/** Option and Result: explicit stand-ins for a Python attribute lookup that
    may raise AttributeError, and for an exception that escapes a call. */
module Wrappers {

  datatype Option<+T> = None | Some(value: T)

  datatype Result<+T, +E> = Ok(value: T) | Err(error: E)
}
